=== FILE: README.md ===
# TerminalTimer core in Dafny

A model of the core of TerminalTimer (`timer_v0.2.2.py`), a terminal countdown
timer. The user picks a session length and a task. The timer counts down one
second per pass of its loop, and `p` pauses or resumes it. It announces voice
clips at fixed remaining times and at half-time, beeps over the last five
seconds, and logs every session. A session ends completed or stopped by Ctrl+C.

The project is one module per concern:

- `Wrappers` (wrappers.dfy): `Option` and `Result`.
- `Text` (text.dfy): the string operations the timer relies on. These are
  `str.isdigit`, `int`, `str.split`, `str.strip` and `str.lower` on ASCII text.
  `Strip` removes every ASCII character `str.strip()` removes, including the
  separators `\x1c` to `\x1f`.
- `Notifications` (notifications.dfy): `play_time_notification` and
  `is_overlapping_with_other_notifications`, as a pure choice of clip.
  Whether a clip's audio file exists is the parameter `present`.
- `Clock` (clock.dfy): `format_time`, together with a reader that inverts it.
- `Display` (display.dfy): the status line of `display_timer`.
- `Durations` (durations.dfy): `parse_time_input`, the acceptance rule of
  `get_custom_input` for one answer, and the numbered menu of `get_user_input`.
- `SessionLog` (sessionlog.dfy): `_get_next_log_number`, `log_timer_start`,
  `log_timer_complete` and `log_timer_stop` on the list of records as loaded.
- `Countdown` (countdown.dfy): `countdown` as a step function folded over a
  list of inputs. Each input is one pass of the loop: the key read in that
  pass, if any, and where a Ctrl+C lands in it. A Ctrl+C can land before the
  key poll, during the wait before the decrement, or after the wait. In the
  last case, if the count reached zero, it lands during the completion sound.
  The screen, sounds, log calls and the reminder are returned as a list of
  effects.
- `Session` (session.dfy): the main loop's use of these pieces. It opens a
  log record, runs the countdown with that record's number and applies the
  log updates.

The code tests half-time first. Consulting the fixed table first chooses the
same clip, and `Notifications.SelectIsFixedFirst` proves it.

The log number 0 stands for Python's falsy `log_number`. With it, the
countdown makes no log calls, and the session's record stays started.

## Model

| member | source | states |
|---|---|---|
| Notifications.Select | timer_v0.2.2.py:214-285 | A chosen clip has its audio file. It is chosen exactly at its own remaining value (half of the total for half-time). It plays twice for 3 and 1 minutes, once otherwise. The 15-minute clip is only chosen in sessions of at least 30 minutes. |
| Notifications.SelectIsFixedFirst | timer_v0.2.2.py:214-300 | Testing half-time first, guarded by "not a fixed time", chooses the same clip as consulting the fixed table first and falling back to half-time. |
| Notifications.HalfTimeRule | timer_v0.2.2.py:218-226 | The half-time clip is chosen if and only if the remaining time equals total // 2, that value is none of the fixed times, and the clip exists. Away from half-time and the fixed times nothing is chosen. |
| Notifications.FifteenMinuteRule | timer_v0.2.2.py:228-233 | In a session shorter than 30 minutes nothing plays at 15 minutes left. |
| Clock.Decompose | timer_v0.2.2.py:308-311 | Hours, minutes below 60 and seconds below 60 that add back up to the duration. |
| Clock.DecomposeUnique | timer_v0.2.2.py:308-311 | Any split with minutes and seconds below 60 is the one `format_time` computes. |
| Clock.Pad2 | timer_v0.2.2.py:313-317 | `{n:02d}` is a decimal numeral whose value is n. Below 100 it has exactly two digits. From 100 on it has no leading zero. |
| Clock.FormatTime | timer_v0.2.2.py:308-317 | Reading the formatted clock back as MM:SS or HH:MM:SS gives the original number of seconds. |
| Clock.FormatTimeShape | timer_v0.2.2.py:313-317 | The output has three colon-separated fields exactly when the duration reaches an hour, and two otherwise. Every field is a numeral of at least two digits with no extra leading zero. The minutes and seconds have exactly two digits and are below 60. |
| Clock.FormatTimeFields | timer_v0.2.2.py:310-317 | The fields are the padded hours (only when there are any), minutes and seconds of the decomposition, in that order. |
| Display.StatusLine | timer_v0.2.2.py:370-382 | Six if-and-only-if rules for the status line. The done line shows exactly when nothing is left. The pause notice shows exactly when time is left and the timer is paused. Otherwise the line is one of three warning bands (10, 30, 60 seconds) or the running notice. |
| Display.UrgencyGrows | timer_v0.2.2.py:370-382 | While running, less time left never shows a calmer status. |
| Display.PauseShowsOnlyWhileRunning | timer_v0.2.2.py:370-382 | Pausing changes the line only while time is left, and then to the pause notice. |
| Durations.UnitAmount | timer_v0.2.2.py:664-669 | The amount before a unit letter is accepted if and only if it is empty or all digits. An empty amount counts as 0. |
| Durations.ParseTimeInput | timer_v0.2.2.py:655-659 | A bare decimal string is read as that many seconds. |
| Durations.ParseComposed | timer_v0.2.2.py:655-689 | Any text in the notation `[H h][M m][S s][T]` (digits, units in that order) decodes to H·3600 + M·60 + S + T. |
| Durations.ReadUnit | timer_v0.2.2.py:664-669 | A unit letter absent from the text leaves it alone, with amount 0. Whenever the text is left alone the amount is 0. When the unit is read, the text was an amount of digits, the unit occurring once, and the rest, and the amount is the value of those digits. A failure means the unit occurs once and the part before it is not a number. |
| Durations.RepeatedUnitSkipped | timer_v0.2.2.py:664-669 | A unit letter that occurs twice or more is skipped, as `len(parts) == 2` fails. It adds nothing and leaves the text alone. |
| Durations.ReadUnitOnce | timer_v0.2.2.py:664-669 | Conversely, a unit letter that occurs exactly once is read off. The result is the amount before it when that is empty or digits, and a format error otherwise. |
| Durations.ByUnits | timer_v0.2.2.py:661-689 | A text with no unit letter counts only its stripped remainder, as seconds if it is a bare number and as 0 otherwise. |
| Durations.DocumentedExamples | timer_v0.2.2.py:625-629 | The unit forms of the examples the prompt prints (5m, 1h30m, 2h, 30s) decode to the seconds it promises. So does 1m30. |
| Durations.DocumentedBareExamples | timer_v0.2.2.py:625-629 | The bare forms of the same examples (300, 5400, 7200, 30) decode to themselves. |
| Durations.BadHoursRejected | timer_v0.2.2.py:664-669 | A single `h` preceded by something that is not a number makes the decoder fail, where Python raises ValueError. |
| Durations.BadMinutesRejected | timer_v0.2.2.py:671-676 | In a text without `h`, a single `m` preceded by something that is not a number makes the decoder fail, where Python raises ValueError. |
| Durations.BadSecondsRejected | timer_v0.2.2.py:678-683 | In a text without `h` or `m`, a single `s` preceded by something that is not a number makes the decoder fail, where Python raises ValueError. |
| Durations.CustomDuration | timer_v0.2.2.py:634-651 | One answer, stripped and lower-cased, is accepted if and only if it is non-blank, decodes, and is more than zero. Then it yields the decoded value. It is reported as blank exactly when it strips to nothing. It is reported as a format error exactly when it is non-blank and does not decode. It is reported as not positive exactly when it decodes to 0. |
| Durations.MenuChoice | timer_v0.2.2.py:587-611 | The stripped answer is accepted if and only if it is 1 to 5. Each answer has its own choice, in both directions: 1 is 30 minutes, 2 is 20, 3 is 15, 4 is 10, and 5 switches to free-form input. A blank answer is its own rejection. |
| SessionLog.MaxNumber | timer_v0.2.2.py:118-123 | The largest record number (0 for a record without one) bounds every record's number and is attained by one. |
| SessionLog.NextNumber | timer_v0.2.2.py:118-123 | 1 for an empty log. Otherwise it exceeds every number and is one past some record's number. |
| SessionLog.NextNumberIsLeastFresh | timer_v0.2.2.py:118-123 | The next number is unused. It is the least number above all recorded numbers. |
| SessionLog.Start | timer_v0.2.2.py:125-145 | Appends exactly one record and keeps the earlier ones. The new record's number is the next number, which was unused. It records the duration, its `format_time` text (which reads back to it), the task (the placeholder when the task is empty), status started and not completed. |
| SessionLog.FirstMatch | timer_v0.2.2.py:150-156 | Finds the first record with the number asked for, or reports that none has it. |
| SessionLog.Complete | timer_v0.2.2.py:147-156 | Only the first record with the number changes, and it becomes completed. The log is unchanged when no record has the number. |
| SessionLog.Stop | timer_v0.2.2.py:158-167 | Only the first record with the number changes. It becomes stopped, not completed, with the remaining seconds recorded. |
| SessionLog.EndTouchesOnlyNewEntry | timer_v0.2.2.py:125-167 | Completing or stopping the session just opened changes only its new record. |
| Countdown.Chosen | timer_v0.2.2.py:448-450 | At most one clip per pass. It is an existing clip announced at the current value and played as often as its kind demands. |
| Countdown.Step | timer_v0.2.2.py:432-529 | One pass. A finished timer ignores it. Otherwise the pass keeps the state valid and takes at most one second off. A Ctrl+C anywhere in it stops the run at the value left, and a pass that leaves the timer counting had no Ctrl+C. |
| Countdown.Run | timer_v0.2.2.py:417-529 | A whole run ends in a valid state, at most one second down per pass. A run still counting has seen no Ctrl+C. |
| Countdown.StepSummary | timer_v0.2.2.py:432-529 | One pass keeps the timer's state valid. It checks for a clip at most once, at the current value. While counting, the count goes down by the number of checks. The log is touched only when the pass ends the run, as that end demands. |
| Countdown.StepsFinished | timer_v0.2.2.py:432-432 | Once the run has ended, further input does nothing. |
| Countdown.RunInvariant | timer_v0.2.2.py:417-529 | Over any run, the state stays valid. Clips are looked up at total, total−1, … in order. A completed run looked up every value from total down to 1. No run looked up a value below the one it ended at, and every value above it was looked up. The announcements are exactly the clips chosen at those values. The only log effects are the ones the ending demands. |
| Countdown.ClipsFireWhenReached | timer_v0.2.2.py:432-456 | The clip due at a value is announced in any run that reached that value: one that completed, or whose count went below it. It is not announced in a run that ended above that value, such as one stopped before reaching it. |
| Countdown.EachClipAtMostOnce | timer_v0.2.2.py:445-456 | However a run is paused or interrupted, no clip is announced twice, and every announcement is of an existing clip played as often as its kind demands. |
| Countdown.PausedPass | timer_v0.2.2.py:434-461 | A paused pass keeps the count and the pause. It shows the pause, checks no clip and does not beep. It ends the run only if interrupted. |
| Countdown.UnpausedPass | timer_v0.2.2.py:445-456 | A running pass checks the clip for the current value and beeps exactly when 5 or fewer seconds are left. It takes exactly one second off, because the pass it describes has no Ctrl+C or has one only after the wait. A Ctrl+C during the wait lands before the decrement and takes nothing off; `Countdown.InterruptStops` covers it. Without interruption it completes exactly when that reaches zero. |
| Countdown.InterruptStops | timer_v0.2.2.py:502-529 | Ctrl+C anywhere in a pass stops the run with the count as it was when Ctrl+C landed. It shows that value, then logs the stop. It never completes the record or starts the reminder. |
| Countdown.WholeRun | timer_v0.2.2.py:432-500 | Without interrupts, a run of at least `total` unpaused passes completes with nothing left. It ends with the completion screen, sound, log update and reminder, and does no other bookkeeping. With fewer unpaused passes it is still counting, exactly that many seconds down. |
| Countdown.NoPauseKeyTicks | timer_v0.2.2.py:434-437 | Without the pause key every pass runs unpaused. |
| Countdown.InterruptedRun | timer_v0.2.2.py:502-529 | A run with a Ctrl+C in it has ended. Unless it completed first, it ended stopped at the value left, with the stop update as its only bookkeeping. |
| Session.OnlyBookkeepingMatters | timer_v0.2.2.py:496-529 | Of all the countdown's effects, only the log updates change the log. |
| Session.RunSession | timer_v0.2.2.py:698-716 | The session's record gets the next free number, and the countdown runs with that number. The log the session leaves is the freshly opened log plus the update for the way its countdown ended. There is no update when the number is 0. |
| Session.SessionRecord | timer_v0.2.2.py:698-716 | After a session the earlier records are unchanged, and exactly one record has been added. That record carries the session's number and length. It says completed, or stopped with the seconds left, or still started if the inputs ran out first or the number is 0. |

## Left out

- Audio (pygame, `play_sound`, `play_beep`) becomes effects such as `Notify`, `Beep` and `PlayCompletion`. The audio file check is the `present` set.
- The `except Exception` around `play_time_notification` is left out. With the audio left out, nothing in the choice of clip can raise.
- The reminder thread (`start_reminder_thread`, `stop_reminder_thread`) is left out because it is concurrency around playback. Only the request to start it, `StartReminder`, is modelled.
- The terminal is left out: termios, cbreak mode, `select`, and restoring the settings.
- `_check_keyboard_input` is an input to each pass. A Ctrl+C that lands inside the poll is swallowed by the poll's own handler, so it is modelled as an uninterrupted pass. Windows, where the poll returns nothing, is a run whose inputs carry no key.
- Sleeping and wall-clock time are left out. An unpaused pass stands for one second, a paused pass for a tenth of one.
- The `is_running` flag is only cleared by the Ctrl+C handler inside `countdown`, so it is modelled by the `Finished` phase.
- Screen drawing is left out: `clear_screen`, the progress bar, colours, the header and the texts. Only the status line is modelled, along with a `Render` effect that records the value shown and whether it showed as paused.
- JSON loading and saving are left out. So are the log directory, the date and time stamps, and the completed/stopped time stamps. The operations take and return the list of records.
- Log numbers that are not integers in the JSON file are out of scope. A record's number is an optional integer.
- The prompt loops in `get_user_input` and `get_custom_input` are left out. So are the task prompt, its non-empty rule and `sys.exit` on Ctrl+C. Each model judges one answer. `SessionLog.Start` still models the placeholder task for an empty task.
- Python's `int()` leniency is left out: signs, whitespace around the digits, underscores and non-ASCII digits. Amounts are empty or ASCII digits. So `1h 30m`, which Python reads as 5400 seconds because `int(" 30")` is 30, is a format error in the model. `Strip` and `Lower` handle ASCII only, so non-ASCII whitespace such as `\x85` or `\xa0` is not stripped.
- `int()`'s limit of 4300 digits is left out. Past it Python raises ValueError, which the prompt reports as a format error. The model reads numerals of any length.
- The restart question at the end of `main` is left out, because it is I/O.
- The 3-second count-in before the countdown is left out, because it is I/O.
- A Ctrl+C inside an unpaused pass is modelled as landing in the one-second wait, after the drawing, the clip lookup and announcement, and the beep. A Ctrl+C inside `display_timer`, inside `play_time_notification` (including between the two plays of the 3- and 1-minute clips), or inside `play_beep` would cut those short. The outcome is the same: the run stops at the current value with the stop update.
- Only one landing point for Ctrl+C after the count reaches zero is modelled: during the completion sound, which stops the run at 0 before any log update. Two other points are left out. A Ctrl+C in the short wait before the completion screen stops the run before that screen. A Ctrl+C while the reminder thread starts, after the completion update, leaves both a completion update and a stop update with 0 seconds. `Countdown.InterruptedRun` does not describe that last case.
- An interrupt during the completion of a zero-second session is left out. That session completes at once, without a pass.

=== FILE: clock.dfy ===
/** `format_time`: a number of seconds as "MM:SS", or "HH:MM:SS" once it
    reaches an hour, every field zero-padded to at least two digits. */
module Clock {
  import opened Wrappers
  import opened Text

  /** Hours, minutes and seconds of a duration. */
  datatype Hms = Hms(hours: nat, minutes: nat, seconds: nat)

  function Total(t: Hms): nat {
    t.hours * 3600 + t.minutes * 60 + t.seconds
  }

  /** Splits a duration into hours, minutes below 60 and seconds below 60. */
  function Decompose(s: nat): (t: Hms)
    ensures t.minutes < 60 && t.seconds < 60
    ensures Total(t) == s
  {
    Hms(s / 3600, (s % 3600) / 60, s % 60)
  }

  /** A split with minutes and seconds below 60 is the one `Decompose` makes. */
  lemma DecomposeUnique(t: Hms)
    requires t.minutes < 60 && t.seconds < 60
    ensures Decompose(Total(t)) == t
  {
    var s := Total(t);
    var r := t.minutes * 60 + t.seconds;
    assert 0 <= r < 3600;
    assert s == t.hours * 3600 + r;
    assert s / 3600 == t.hours && s % 3600 == r;
    assert r / 60 == t.minutes && r % 60 == t.seconds;
    assert s % 60 == r % 60 by {
      assert s == (t.hours * 60) * 60 + r;
    }
  }

  /** `f"{n:02d}"`: the numeral of `n`, with a leading zero below 10. Below 100
      it has exactly two digits; from 100 on it has no leading zero. */
  function Pad2(n: nat): (s: string)
    ensures IsDecimal(s) && |s| >= 2 && Value(s) == n
    ensures n < 100 ==> |s| == 2
    ensures |s| > 2 ==> s[0] != '0'
  {
    var d := Digits(n);
    if n < 10 then LeadingZero(d); "0" + d else d
  }

  /** `format_time`. Reading the clock back gives the number of seconds. */
  function FormatTime(seconds: nat): (clock: string)
    ensures ReadClock(clock) == Some(seconds)
  {
    var t := Decompose(seconds);
    if t.hours > 0 then
      var clock := Pad2(t.hours) + ":" + Pad2(t.minutes) + ":" + Pad2(t.seconds);
      ReadsBackLong(seconds, t.hours, t.minutes, t.seconds, clock);
      clock
    else
      var clock := Pad2(t.minutes) + ":" + Pad2(t.seconds);
      ReadsBackShort(seconds, t.minutes, t.seconds, clock);
      clock
  }

  /** The fields of a clock reading, in order. */
  function Fields(clock: string): seq<string> {
    Split(clock, ':')
  }

  /** Reads "MM:SS" or "HH:MM:SS" back into seconds. */
  function ReadClock(clock: string): Option<nat> {
    var f := Fields(clock);
    if |f| == 2 && IsDecimal(f[0]) && IsDecimal(f[1]) then
      Some(Value(f[0]) * 60 + Value(f[1]))
    else if |f| == 3 && IsDecimal(f[0]) && IsDecimal(f[1]) && IsDecimal(f[2]) then
      Some(Value(f[0]) * 3600 + Value(f[1]) * 60 + Value(f[2]))
    else
      None
  }

  /** A numeral holds no colon. */
  lemma NoColon(s: string)
    requires IsDecimal(s)
    ensures ':' !in s
  {
    forall i | 0 <= i < |s| ensures s[i] != ':' {
      assert IsDigit(s[i]);
    }
  }

  /** Two numerals joined by a colon split back into those numerals. */
  lemma SplitTwo(a: string, b: string)
    requires IsDecimal(a) && IsDecimal(b)
    ensures Fields(a + ":" + b) == [a, b]
  {
    NoColon(a);
    NoColon(b);
    assert Join([a, b], ':') == a + ":" + b;
    SplitJoin([a, b], ':');
  }

  /** Three numerals joined by colons split back into those numerals. */
  lemma SplitThree(a: string, b: string, c: string)
    requires IsDecimal(a) && IsDecimal(b) && IsDecimal(c)
    ensures Fields(a + ":" + b + ":" + c) == [a, b, c]
  {
    NoColon(a);
    NoColon(b);
    NoColon(c);
    assert [a, b, c][1..] == [b, c];
    assert Join([b, c], ':') == b + ":" + c;
    assert Join([a, b, c], ':') == a + ":" + (b + ":" + c);
    assert a + ":" + (b + ":" + c) == a + ":" + b + ":" + c;
    SplitJoin([a, b, c], ':');
  }

  /** The fields of the clock are the padded numerals of its field values. */
  lemma FormatTimeFields(seconds: nat)
    ensures var t := Decompose(seconds);
      Fields(FormatTime(seconds)) ==
        if t.hours > 0 then [Pad2(t.hours), Pad2(t.minutes), Pad2(t.seconds)]
        else [Pad2(t.minutes), Pad2(t.seconds)]
  {
    var t := Decompose(seconds);
    if t.hours > 0 {
      SplitThree(Pad2(t.hours), Pad2(t.minutes), Pad2(t.seconds));
    } else {
      SplitTwo(Pad2(t.minutes), Pad2(t.seconds));
    }
  }

  /** Shape of the output: three fields exactly when the duration reaches an
      hour, two otherwise. Every field is a numeral of at least two digits
      without extra leading zeros, and the minutes and seconds have exactly two
      and are below 60. */
  lemma FormatTimeShape(seconds: nat)
    ensures |Fields(FormatTime(seconds))| == 3 <==> seconds >= 3600
    ensures |Fields(FormatTime(seconds))| == 2 <==> seconds < 3600
    ensures forall f :: f in Fields(FormatTime(seconds)) ==>
      IsDecimal(f) && |f| >= 2 && (|f| == 2 || f[0] != '0')
    ensures var fs := Fields(FormatTime(seconds));
      |fs| >= 2 && |fs[|fs| - 2]| == 2 && |fs[|fs| - 1]| == 2
    ensures var fs := Fields(FormatTime(seconds));
      && |fs| >= 2 && IsDecimal(fs[|fs| - 2]) && IsDecimal(fs[|fs| - 1])
      && Value(fs[|fs| - 2]) < 60 && Value(fs[|fs| - 1]) < 60
  {
    var t := Decompose(seconds);
    FormatTimeFields(seconds);
    PaddedFields(Fields(FormatTime(seconds)), t.hours, t.minutes, t.seconds);
  }

  /** The shape of the padded fields of hours `h`, minutes `m` and seconds `s`. */
  lemma PaddedFields(fs: seq<string>, h: nat, m: nat, s: nat)
    requires m < 60 && s < 60
    requires fs == if h > 0 then [Pad2(h), Pad2(m), Pad2(s)] else [Pad2(m), Pad2(s)]
    ensures |fs| == 3 <==> h > 0
    ensures |fs| == 2 <==> h == 0
    ensures forall f :: f in fs ==> IsDecimal(f) && |f| >= 2 && (|f| == 2 || f[0] != '0')
    ensures |fs| >= 2 && |fs[|fs| - 2]| == 2 && |fs[|fs| - 1]| == 2
    ensures |fs| >= 2 && IsDecimal(fs[|fs| - 2]) && IsDecimal(fs[|fs| - 1])
    ensures |fs| >= 2 && Value(fs[|fs| - 2]) == m < 60 && Value(fs[|fs| - 1]) == s < 60
  {
  }

  /** Reading a clock whose fields are two or three numerals of values `x`, `y`, `z`. */
  lemma ReadTwo(clock: string, a: string, b: string, x: nat, y: nat)
    requires Fields(clock) == [a, b]
    requires IsDecimal(a) && IsDecimal(b) && Value(a) == x && Value(b) == y
    ensures ReadClock(clock) == Some(x * 60 + y)
  {
  }

  lemma ReadThree(clock: string, a: string, b: string, c: string, x: nat, y: nat, z: nat)
    requires Fields(clock) == [a, b, c]
    requires IsDecimal(a) && IsDecimal(b) && IsDecimal(c)
    requires Value(a) == x && Value(b) == y && Value(c) == z
    ensures ReadClock(clock) == Some(x * 3600 + y * 60 + z)
  {
  }

  lemma ReadsBackLong(seconds: nat, h: nat, m: nat, s: nat, clock: string)
    requires clock == Pad2(h) + ":" + Pad2(m) + ":" + Pad2(s)
    requires h * 3600 + m * 60 + s == seconds
    ensures ReadClock(clock) == Some(seconds)
  {
    SplitThree(Pad2(h), Pad2(m), Pad2(s));
    ReadThree(clock, Pad2(h), Pad2(m), Pad2(s), h, m, s);
  }

  lemma ReadsBackShort(seconds: nat, m: nat, s: nat, clock: string)
    requires clock == Pad2(m) + ":" + Pad2(s)
    requires m * 60 + s == seconds
    ensures ReadClock(clock) == Some(seconds)
  {
    SplitTwo(Pad2(m), Pad2(s));
    ReadTwo(clock, Pad2(m), Pad2(s), m, s);
  }
}

=== FILE: countdown.dfy ===
/** The countdown loop (`countdown`) as a state machine folded over its inputs.
    Each input stands for one pass of the loop: the key read from the terminal
    during that pass, if any, and whether and where Ctrl+C lands in it. What
    the loop does to the screen, the speakers and the log is returned as a list
    of effects. Sleeping is not modelled: an unpaused pass is one second, a
    paused pass a tenth of one. */
module Countdown {
  import opened Wrappers
  import opened Text
  import opened Notifications

  /** Where in a pass Ctrl+C lands: before the key is read, while the pass
      waits (before the count goes down), or once the wait is over (after it
      has gone down; if that reached zero, during the completion sound). */
  datatype Interrupt = Uninterrupted | BeforePoll | DuringWait | AfterWait

  datatype Input = Input(key: Option<char>, interrupt: Interrupt)

  /** The key is lower-cased before it is compared with `p`. */
  predicate IsPauseKey(c: char) {
    LowerChar(c) == 'p'
  }

  predicate Toggles(i: Input) {
    i.key.Some? && IsPauseKey(i.key.value)
  }

  /** Whether the pass for `i` runs paused, the timer having been `paused` before it. */
  function PausedDuring(paused: bool, i: Input): bool {
    if Toggles(i) then !paused else paused
  }

  datatype Outcome = Completed | Stopped(left: nat)

  datatype Phase = Counting | Finished(outcome: Outcome)

  datatype Timer = Timer(remaining: nat, paused: bool, phase: Phase)

  /** What a run is started with: its length, the clips whose audio exists,
      and the log number it reports to (0 when there is none to report to). */
  datatype Config = Config(total: nat, present: set<Clip>, logNumber: int)

  datatype Effect =
    | Toggled(nowPaused: bool)
    | Render(shown: nat, showsPaused: bool)
    | CheckNotification(at: nat)
    | Notify(notification: Notification)
    | Beep
    | ShowCompleted
    | PlayCompletion
    | LogComplete(number: int)
    | StartReminder
    | ShowStopped(stoppedAt: nat)
    | LogStop(stoppedNumber: int, stoppedLeft: nat)

  datatype Trace = Trace(timer: Timer, effects: seq<Effect>)

  /** The states a run can be in. */
  predicate Valid(c: Config, t: Timer) {
    && t.remaining <= c.total
    && (t.phase.Counting? ==> t.remaining > 0)
    && (t.phase == Finished(Completed) ==> t.remaining == 0)
    && (t.phase.Finished? && t.phase.outcome.Stopped? ==> t.phase.outcome.left == t.remaining)
  }

  /** The clip chosen for `remaining`, if any. */
  function Announce(c: Config, remaining: nat): seq<Effect> {
    match Select(remaining, c.total, c.present)
    case None => []
    case Some(n) => [Notify(n)]
  }

  /** An unpaused pass before its wait: draw, choose a clip, beep over the last five seconds. */
  function Tick(c: Config, remaining: nat): seq<Effect> {
    [Render(remaining, false), CheckNotification(remaining)] + Announce(c, remaining)
      + (if remaining <= 5 then [Beep] else [])
  }

  /** The log update made when a run completes and when it is stopped. */
  function CompleteLog(c: Config): seq<Effect> {
    if c.logNumber != 0 then [LogComplete(c.logNumber)] else []
  }

  function StopLog(c: Config, left: nat): seq<Effect> {
    if c.logNumber != 0 then [LogStop(c.logNumber, left)] else []
  }

  /** The stop screen and log update. */
  function StopEffects(c: Config, left: nat): seq<Effect> {
    [ShowStopped(left)] + StopLog(c, left)
  }

  /** The completion screen, sound, log update and reminder. */
  function CompletionEffects(c: Config): seq<Effect> {
    [ShowCompleted, PlayCompletion] + CompleteLog(c) + [StartReminder]
  }

  /** The handler for Ctrl+C after `before` has been done, with `left` seconds left. */
  function Halt(c: Config, left: nat, paused: bool, before: seq<Effect>): Trace {
    Trace(Timer(left, paused, Finished(Stopped(left))), before + StopEffects(c, left))
  }

  /** A run of `c.total` seconds before its first pass. A zero-second run
      skips the loop and completes at once. */
  function Start(c: Config): Trace {
    if c.total > 0 then Trace(Timer(c.total, false, Counting), [])
    else Trace(Timer(0, false, Finished(Completed)), CompletionEffects(c))
  }

  /** One pass of the loop. A finished timer ignores it; otherwise it keeps
      the state valid, takes at most one second off, and a Ctrl+C anywhere
      in it stops the run. */
  function Step(c: Config, t: Timer, i: Input): (r: Trace)
    ensures t.phase.Finished? ==> r == Trace(t, [])
    ensures Valid(c, t) ==> Valid(c, r.timer)
    ensures r.timer.remaining <= t.remaining <= r.timer.remaining + 1
    ensures r.timer.phase.Counting? ==> t.phase.Counting? && i.interrupt == Uninterrupted
    ensures t.phase.Counting? && i.interrupt != Uninterrupted ==>
      r.timer.phase == Finished(Stopped(r.timer.remaining))
  {
    if t.phase.Finished? then Trace(t, [])
    else if i.interrupt == BeforePoll then Halt(c, t.remaining, t.paused, [])
    else
      var paused := PausedDuring(t.paused, i);
      var shown := if Toggles(i) then [Toggled(paused), Render(t.remaining, paused)] else [];
      if paused then
        var effects := shown + [Render(t.remaining, true)];
        if i.interrupt == Uninterrupted then Trace(Timer(t.remaining, true, Counting), effects)
        else Halt(c, t.remaining, true, effects)
      else
        var effects := shown + Tick(c, t.remaining);
        if i.interrupt == DuringWait then Halt(c, t.remaining, false, effects)
        else if t.remaining > 1 then
          if i.interrupt == AfterWait then Halt(c, t.remaining - 1, false, effects)
          else assert i.interrupt.Uninterrupted?; Trace(Timer(t.remaining - 1, false, Counting), effects)
        else if i.interrupt == AfterWait then
          Halt(c, 0, false, effects + [ShowCompleted, PlayCompletion])
        else
          assert i.interrupt.Uninterrupted?;
          Trace(Timer(0, false, Finished(Completed)), effects + CompletionEffects(c))
  }

  /** The passes for `inputs`, in order, from `t`. */
  function Steps(c: Config, t: Timer, inputs: seq<Input>): (r: Trace)
    ensures Valid(c, t) ==> Valid(c, r.timer)
    ensures r.timer.remaining <= t.remaining <= r.timer.remaining + |inputs|
    ensures r.timer.phase.Counting? ==>
      t.phase.Counting? && forall k :: 0 <= k < |inputs| ==> inputs[k].interrupt == Uninterrupted
    decreases |inputs|
  {
    if |inputs| == 0 then Trace(t, [])
    else
      var first := Step(c, t, inputs[0]);
      var rest := Steps(c, first.timer, inputs[1..]);
      assert forall k :: 1 <= k < |inputs| ==> inputs[k] == inputs[1..][k - 1];
      Trace(rest.timer, first.effects + rest.effects)
  }

  /** A whole run: the start and one pass per input. It ends in a valid
      state, at most one second down per input, and a run still counting
      has seen no Ctrl+C. */
  function Run(c: Config, inputs: seq<Input>): (r: Trace)
    ensures Valid(c, r.timer)
    ensures r.timer.remaining <= c.total <= r.timer.remaining + |inputs|
    ensures r.timer.phase.Counting? ==> forall k :: 0 <= k < |inputs| ==> inputs[k].interrupt == Uninterrupted
  {
    var start := Start(c);
    var passes := Steps(c, start.timer, inputs);
    Trace(passes.timer, start.effects + passes.effects)
  }

  // Projections of an effect list.

  function CheckOf(e: Effect): seq<nat> {
    if e.CheckNotification? then [e.at] else []
  }

  function NotificationOf(e: Effect): seq<Notification> {
    if e.Notify? then [e.notification] else []
  }

  /** The effects that touch the log or the reminder. */
  function BookkeepingOf(e: Effect): seq<Effect> {
    if e.LogComplete? || e.LogStop? || e.StartReminder? then [e] else []
  }

  /** The remaining values at which a clip was looked up, in order. */
  function Checks(effects: seq<Effect>): seq<nat> {
    if |effects| == 0 then [] else CheckOf(effects[0]) + Checks(effects[1..])
  }

  function Announcements(effects: seq<Effect>): seq<Notification> {
    if |effects| == 0 then [] else NotificationOf(effects[0]) + Announcements(effects[1..])
  }

  function Bookkeeping(effects: seq<Effect>): seq<Effect> {
    if |effects| == 0 then [] else BookkeepingOf(effects[0]) + Bookkeeping(effects[1..])
  }

  lemma {:induction false} ProjectionsConcat(a: seq<Effect>, b: seq<Effect>)
    ensures Checks(a + b) == Checks(a) + Checks(b)
    ensures Announcements(a + b) == Announcements(a) + Announcements(b)
    ensures Bookkeeping(a + b) == Bookkeeping(a) + Bookkeeping(b)
  {
    ChecksConcat(a, b);
    AnnouncementsConcat(a, b);
    BookkeepingConcat(a, b);
  }

  lemma {:induction false} ChecksConcat(a: seq<Effect>, b: seq<Effect>)
    ensures Checks(a + b) == Checks(a) + Checks(b)
  {
    if |a| > 0 {
      assert (a + b)[1..] == a[1..] + b;
      ChecksConcat(a[1..], b);
      assert Checks(a + b) == CheckOf(a[0]) + (Checks(a[1..]) + Checks(b));
    } else {
      assert a + b == b;
    }
  }

  lemma {:induction false} AnnouncementsConcat(a: seq<Effect>, b: seq<Effect>)
    ensures Announcements(a + b) == Announcements(a) + Announcements(b)
  {
    if |a| > 0 {
      assert (a + b)[1..] == a[1..] + b;
      AnnouncementsConcat(a[1..], b);
      assert Announcements(a + b) == NotificationOf(a[0]) + (Announcements(a[1..]) + Announcements(b));
    } else {
      assert a + b == b;
    }
  }

  lemma {:induction false} BookkeepingConcat(a: seq<Effect>, b: seq<Effect>)
    ensures Bookkeeping(a + b) == Bookkeeping(a) + Bookkeeping(b)
  {
    if |a| > 0 {
      assert (a + b)[1..] == a[1..] + b;
      BookkeepingConcat(a[1..], b);
      assert Bookkeeping(a + b) == BookkeepingOf(a[0]) + (Bookkeeping(a[1..]) + Bookkeeping(b));
    } else {
      assert a + b == b;
    }
  }

  /** Projections of one effect. */
  lemma ProjectOne(e: Effect)
    ensures Checks([e]) == CheckOf(e)
    ensures Announcements([e]) == NotificationOf(e)
    ensures Bookkeeping([e]) == BookkeepingOf(e)
  {
    assert [e][1..] == [];
  }

  /** The clip chosen at `remaining`, as a list of at most one. */
  function Chosen(c: Config, remaining: nat): (r: seq<Notification>)
    ensures |r| <= 1
    ensures forall k :: 0 <= k < |r| ==>
      && r[k].clip in c.present
      && FireValue(r[k].clip, c.total) == remaining
      && r[k].plays == Plays(r[k].clip)
  {
    match Select(remaining, c.total, c.present)
    case None => []
    case Some(n) => [n]
  }

  /** The clips chosen along a list of remaining values. */
  function ChosenAll(c: Config, checks: seq<nat>): seq<Notification> {
    if |checks| == 0 then [] else Chosen(c, checks[0]) + ChosenAll(c, checks[1..])
  }

  lemma {:induction false} ChosenAllConcat(c: Config, a: seq<nat>, b: seq<nat>)
    ensures ChosenAll(c, a + b) == ChosenAll(c, a) + ChosenAll(c, b)
  {
    if |a| > 0 {
      assert (a + b)[1..] == a[1..] + b;
      ChosenAllConcat(c, a[1..], b);
    } else {
      assert a + b == b;
    }
  }

  /** The bookkeeping a run has done once it is in `phase`: none while it
      counts, the completion update and the reminder once it completes, the
      stop update once it is stopped. */
  function EndBookkeeping(c: Config, phase: Phase): seq<Effect> {
    match phase
    case Counting => []
    case Finished(Completed) => CompleteLog(c) + [StartReminder]
    case Finished(Stopped(left)) => StopLog(c, left)
  }

  lemma AnnounceProjections(c: Config, remaining: nat)
    ensures Checks(Announce(c, remaining)) == []
    ensures Announcements(Announce(c, remaining)) == Chosen(c, remaining)
    ensures Bookkeeping(Announce(c, remaining)) == []
  {
    var chosen := Select(remaining, c.total, c.present);
    if chosen.Some? {
      ProjectOne(Notify(chosen.value));
    }
  }

  lemma FrontProjections(remaining: nat)
    ensures var front := [Render(remaining, false), CheckNotification(remaining)];
      Checks(front) == [remaining] && Announcements(front) == [] && Bookkeeping(front) == []
  {
    ProjectOne(Render(remaining, false));
    ProjectOne(CheckNotification(remaining));
    ProjectionsConcat([Render(remaining, false)], [CheckNotification(remaining)]);
    assert [Render(remaining, false)] + [CheckNotification(remaining)]
      == [Render(remaining, false), CheckNotification(remaining)];
  }

  lemma TickProjections(c: Config, remaining: nat)
    ensures Checks(Tick(c, remaining)) == [remaining]
    ensures Announcements(Tick(c, remaining)) == Chosen(c, remaining)
    ensures Bookkeeping(Tick(c, remaining)) == []
    ensures Beep in Tick(c, remaining) <==> remaining <= 5
  {
    var beep: seq<Effect> := if remaining <= 5 then [Beep] else [];
    var announce := Announce(c, remaining);
    var front := [Render(remaining, false), CheckNotification(remaining)];
    assert front == [Render(remaining, false)] + [CheckNotification(remaining)];
    FrontProjections(remaining);
    AnnounceProjections(c, remaining);
    if remaining <= 5 {
      ProjectOne(Beep);
    }
    assert Checks(beep) == [] && Announcements(beep) == [] && Bookkeeping(beep) == [];
    ProjectionsConcat(front, announce);
    ProjectionsConcat(front + announce, beep);
    assert [remaining] + [] + [] == [remaining];
    assert [] + Chosen(c, remaining) + [] == Chosen(c, remaining);
    assert Tick(c, remaining) == front + announce + beep;
    TickBeeps(c, remaining);
  }

  /** The beep sounds over the last five seconds only. */
  lemma TickBeeps(c: Config, remaining: nat)
    ensures Beep in Tick(c, remaining) <==> remaining <= 5
  {
    var beep: seq<Effect> := if remaining <= 5 then [Beep] else [];
    var announce := Announce(c, remaining);
    var front := [Render(remaining, false), CheckNotification(remaining)];
    assert Tick(c, remaining) == (front + announce) + beep;
    assert Beep !in front;
    assert Beep !in announce;
    assert Beep !in front + announce;
  }

  lemma ShownProjections(c: Config, paused: bool, remaining: nat)
    ensures var shown := [Toggled(paused), Render(remaining, paused)];
      Checks(shown) == [] && Announcements(shown) == [] && Bookkeeping(shown) == []
    ensures Checks([Render(remaining, paused)]) == []
    ensures Announcements([Render(remaining, paused)]) == []
    ensures Bookkeeping([Render(remaining, paused)]) == []
  {
    ProjectOne(Toggled(paused));
    ProjectOne(Render(remaining, paused));
    ProjectionsConcat([Toggled(paused)], [Render(remaining, paused)]);
    assert [Toggled(paused)] + [Render(remaining, paused)] == [Toggled(paused), Render(remaining, paused)];
  }

  lemma CompletionProjections(c: Config)
    ensures Checks(CompletionEffects(c)) == []
    ensures Announcements(CompletionEffects(c)) == []
    ensures Bookkeeping(CompletionEffects(c)) == CompleteLog(c) + [StartReminder]
    ensures Checks([ShowCompleted, PlayCompletion]) == []
    ensures Announcements([ShowCompleted, PlayCompletion]) == []
    ensures Bookkeeping([ShowCompleted, PlayCompletion]) == []
  {
    var shows := [ShowCompleted, PlayCompletion];
    var log := CompleteLog(c);
    ProjectOne(ShowCompleted);
    ProjectOne(PlayCompletion);
    ProjectOne(StartReminder);
    assert shows == [ShowCompleted] + [PlayCompletion];
    ProjectionsConcat([ShowCompleted], [PlayCompletion]);
    assert Checks(shows) == [] && Announcements(shows) == [] && Bookkeeping(shows) == [];
    if c.logNumber != 0 {
      ProjectOne(LogComplete(c.logNumber));
    } else {
      assert log == [];
    }
    assert Checks(log) == [] && Announcements(log) == [] && Bookkeeping(log) == log;
    ProjectionsConcat(shows, log);
    ProjectionsConcat(shows + log, [StartReminder]);
    assert Checks(shows + log + [StartReminder]) == [] + [] + [];
    assert Announcements(shows + log + [StartReminder]) == [] + [] + [];
    assert Bookkeeping(shows + log + [StartReminder]) == [] + log + [StartReminder];
  }

  lemma HaltProjections(c: Config, left: nat, paused: bool, before: seq<Effect>)
    ensures Checks(Halt(c, left, paused, before).effects) == Checks(before)
    ensures Announcements(Halt(c, left, paused, before).effects) == Announcements(before)
    ensures Bookkeeping(Halt(c, left, paused, before).effects) == Bookkeeping(before) + StopLog(c, left)
  {
    StopProjections(c, left);
    ProjectionsConcat(before, StopEffects(c, left));
    assert Checks(before) + [] == Checks(before);
    assert Announcements(before) + [] == Announcements(before);
  }

  lemma StopProjections(c: Config, left: nat)
    ensures Checks(StopEffects(c, left)) == []
    ensures Announcements(StopEffects(c, left)) == []
    ensures Bookkeeping(StopEffects(c, left)) == StopLog(c, left)
  {
    var stop := StopLog(c, left);
    ProjectOne(ShowStopped(left));
    if c.logNumber != 0 {
      ProjectOne(LogStop(c.logNumber, left));
    } else {
      assert stop == [];
    }
    ProjectionsConcat([ShowStopped(left)], stop);
  }

  /** What one pass of a counting timer `t` that produced `s` did, as far as
      the whole-run properties need: it kept the timer valid, it chose a clip
      at most once and then at the current value, the count went down by the
      number of choices while the timer still counts, a pass that completed
      the run checked every value it had left, no value below the one the
      pass ended at was checked, and the log was touched only if the pass
      ended the run, as that end demands. */
  predicate PassSummary(c: Config, t: Timer, s: Trace) {
    && Valid(c, s.timer)
    && (Checks(s.effects) == [] || Checks(s.effects) == [t.remaining])
    && Announcements(s.effects) == ChosenAll(c, Checks(s.effects))
    && (s.timer.phase.Counting? ==> s.timer.remaining + |Checks(s.effects)| == t.remaining)
    && (s.timer.phase == Finished(Completed) ==> |Checks(s.effects)| == t.remaining)
    && (forall k :: 0 <= k < |Checks(s.effects)| ==> Checks(s.effects)[k] >= s.timer.remaining)
    && t.remaining <= s.timer.remaining + |Checks(s.effects)|
    && Bookkeeping(s.effects) == EndBookkeeping(c, s.timer.phase)
  }

  /** Effects of a pass so far that have not ended it. */
  predicate Unfinished(c: Config, t: Timer, effects: seq<Effect>) {
    && (Checks(effects) == [] || Checks(effects) == [t.remaining])
    && Announcements(effects) == ChosenAll(c, Checks(effects))
    && Bookkeeping(effects) == []
  }

  lemma HaltSummary(c: Config, t: Timer, left: nat, paused: bool, before: seq<Effect>)
    requires Valid(c, t) && t.phase.Counting? && left <= t.remaining
    requires Unfinished(c, t, before) && t.remaining <= left + |Checks(before)|
    ensures PassSummary(c, t, Halt(c, left, paused, before))
  {
    var h := Halt(c, left, paused, before);
    HaltProjections(c, left, paused, before);
    assert h.timer == Timer(left, paused, Finished(Stopped(left)));
    var checks := Checks(before);
    assert Checks(h.effects) == checks;
    assert forall k :: 0 <= k < |checks| ==> checks[k] == t.remaining;
  }

  lemma ShownUnfinished(c: Config, t: Timer, i: Input, paused: bool)
    ensures Unfinished(c, t, if Toggles(i) then [Toggled(paused), Render(t.remaining, paused)] else [])
  {
    ShownProjections(c, paused, t.remaining);
  }

  lemma PausedUnfinished(c: Config, t: Timer, shown: seq<Effect>)
    requires Unfinished(c, t, shown) && Checks(shown) == []
    ensures Unfinished(c, t, shown + [Render(t.remaining, true)])
    ensures Checks(shown + [Render(t.remaining, true)]) == []
  {
    ShownProjections(c, true, t.remaining);
    ProjectionsConcat(shown, [Render(t.remaining, true)]);
  }

  lemma TickUnfinished(c: Config, t: Timer, shown: seq<Effect>)
    requires Unfinished(c, t, shown) && Checks(shown) == []
    ensures Unfinished(c, t, shown + Tick(c, t.remaining))
    ensures Checks(shown + Tick(c, t.remaining)) == [t.remaining]
  {
    var r := t.remaining;
    assert [r][1..] == [];
    assert ChosenAll(c, [r]) == Chosen(c, r);
    TickProjections(c, r);
    ProjectionsConcat(shown, Tick(c, r));
  }

  lemma CompleteSummary(c: Config, t: Timer, effects: seq<Effect>)
    requires Valid(c, t) && t.phase.Counting?
    requires Unfinished(c, t, effects)
    requires Checks(effects) == [t.remaining] && t.remaining == 1
    ensures PassSummary(c, t, Trace(Timer(0, false, Finished(Completed)), effects + CompletionEffects(c)))
  {
    var all := effects + CompletionEffects(c);
    CompletionProjections(c);
    ProjectionsConcat(effects, CompletionEffects(c));
    assert Checks(all) == Checks(effects) + [];
    assert Announcements(all) == Announcements(effects) + [];
    assert Bookkeeping(all) == [] + CompleteLog(c) + [StartReminder];
  }

  lemma InterruptedCompletionUnfinished(c: Config, t: Timer, effects: seq<Effect>)
    requires Unfinished(c, t, effects)
    ensures Unfinished(c, t, effects + [ShowCompleted, PlayCompletion])
    ensures Checks(effects + [ShowCompleted, PlayCompletion]) == Checks(effects)
  {
    CompletionProjections(c);
    ProjectionsConcat(effects, [ShowCompleted, PlayCompletion]);
  }

  lemma StepSummary(c: Config, t: Timer, i: Input)
    requires Valid(c, t) && t.phase.Counting?
    ensures PassSummary(c, t, Step(c, t, i))
  {
    if i.interrupt == Uninterrupted {
      QuietStepSummary(c, t, i);
    } else {
      var paused := if i.interrupt == BeforePoll then t.paused else PausedDuring(t.paused, i);
      StepIsHalt(c, t, i);
      InterruptedUnfinished(c, t, i);
      HaltSummary(c, t, InterruptedLeft(t, i), paused, InterruptedBefore(c, t, i));
    }
  }

  /** A pass that leaves the timer counting, `|Checks(effects)|` seconds down. */
  lemma ContinueSummary(c: Config, t: Timer, effects: seq<Effect>, next: Timer)
    requires Valid(c, t) && t.phase.Counting? && Unfinished(c, t, effects)
    requires next.phase == Counting && next.remaining > 0
    requires next.remaining + |Checks(effects)| == t.remaining
    ensures PassSummary(c, t, Trace(next, effects))
  {
  }

  /** A pass without Ctrl+C: paused, counting down, or completing. */
  lemma QuietStepSummary(c: Config, t: Timer, i: Input)
    requires Valid(c, t) && t.phase.Counting? && i.interrupt == Uninterrupted
    ensures PassSummary(c, t, Step(c, t, i))
  {
    var r := t.remaining;
    var paused := PausedDuring(t.paused, i);
    var shown: seq<Effect> := if Toggles(i) then [Toggled(paused), Render(r, paused)] else [];
    ShownUnfinished(c, t, i, paused);
    ShownProjections(c, paused, r);
    if paused {
      PausedUnfinished(c, t, shown);
      assert Step(c, t, i) == Trace(Timer(r, true, Counting), shown + [Render(r, true)]);
      ContinueSummary(c, t, shown + [Render(r, true)], Timer(r, true, Counting));
    } else {
      TickUnfinished(c, t, shown);
      TickSummary(c, t, i, shown + Tick(c, r));
    }
  }

  lemma TickSummary(c: Config, t: Timer, i: Input, effects: seq<Effect>)
    requires Valid(c, t) && t.phase.Counting? && i.interrupt == Uninterrupted
    requires !PausedDuring(t.paused, i)
    requires effects == (if Toggles(i) then [Toggled(false), Render(t.remaining, false)] else []) + Tick(c, t.remaining)
    requires Unfinished(c, t, effects) && Checks(effects) == [t.remaining]
    ensures PassSummary(c, t, Step(c, t, i))
  {
    var r := t.remaining;
    if r > 1 {
      assert Step(c, t, i) == Trace(Timer(r - 1, false, Counting), effects);
      ContinueSummary(c, t, effects, Timer(r - 1, false, Counting));
    } else {
      assert Step(c, t, i) == Trace(Timer(0, false, Finished(Completed)), effects + CompletionEffects(c));
      CompleteSummary(c, t, effects);
    }
  }

  /** `checks` is a prefix of from, from - 1, ..., 1. */
  predicate Descending(checks: seq<nat>, from: nat) {
    && |checks| <= from
    && forall k :: 0 <= k < |checks| ==> checks[k] == from - k
  }

  lemma DescendingCons(checks: seq<nat>, from: nat)
    requires from >= 1 && Descending(checks, from - 1)
    ensures Descending([from] + checks, from)
  {
  }

  /** A finished timer ignores all further input. */
  lemma {:induction false} StepsFinished(c: Config, t: Timer, inputs: seq<Input>)
    requires t.phase.Finished?
    ensures Steps(c, t, inputs) == Trace(t, [])
    decreases |inputs|
  {
    if |inputs| > 0 {
      StepsFinished(c, t, inputs[1..]);
    }
  }

  /** The whole-run invariant for the passes `s` made from a counting timer
      `t`: the run stays valid, the values at which clips are chosen count
      down one by one from the current value, reaching 1 if the run completed
      and never going below the value the run ended at, the clips announced
      are exactly those chosen at these values, and the log is touched only
      as the end of the run demands. */
  predicate RunSummary(c: Config, t: Timer, s: Trace) {
    && Valid(c, s.timer)
    && Descending(Checks(s.effects), t.remaining)
    && Announcements(s.effects) == ChosenAll(c, Checks(s.effects))
    && (s.timer.phase.Counting? ==> s.timer.remaining + |Checks(s.effects)| == t.remaining)
    && (s.timer.phase == Finished(Completed) ==> |Checks(s.effects)| == t.remaining)
    && (forall k :: 0 <= k < |Checks(s.effects)| ==> Checks(s.effects)[k] >= s.timer.remaining)
    && t.remaining <= s.timer.remaining + |Checks(s.effects)|
    && Bookkeeping(s.effects) == EndBookkeeping(c, s.timer.phase)
  }

  /** The values a pass checked, followed by those the rest of the run
      checked, still count down from where the pass began to no lower than
      where the run ended. */
  lemma ChecksAppend(a: seq<nat>, b: seq<nat>, from: nat, mid: nat, end: nat)
    requires a == [] || a == [from]
    requires mid + |a| == from && end <= mid
    requires Descending(b, mid) && mid <= end + |b|
    requires forall k :: 0 <= k < |b| ==> b[k] >= end
    ensures Descending(a + b, from) && from <= end + |a + b|
    ensures forall k :: 0 <= k < |a + b| ==> (a + b)[k] >= end
    ensures |b| == mid ==> |a + b| == from
  {
    if a == [] {
      assert a + b == b;
    } else {
      DescendingCons(b, from);
      assert a + b == [from] + b;
    }
  }

  /** One pass followed by the rest of the run keeps the invariant. */
  lemma CombineSummary(c: Config, t: Timer, first: Trace, rest: Trace)
    requires Valid(c, t) && t.phase.Counting? && PassSummary(c, t, first)
    requires first.timer.phase.Finished? ==> rest == Trace(first.timer, [])
    requires first.timer.phase.Counting? ==> RunSummary(c, first.timer, rest)
    requires rest.timer.remaining <= first.timer.remaining <= t.remaining
    ensures RunSummary(c, t, Trace(rest.timer, first.effects + rest.effects))
  {
    if first.timer.phase.Finished? {
      assert first.effects + rest.effects == first.effects;
    } else {
      CombineCounting(c, t, first, rest);
    }
  }

  /** A pass that left the timer counting, followed by the rest of the run. */
  lemma CombineCounting(c: Config, t: Timer, first: Trace, rest: Trace)
    requires Valid(c, t) && t.phase.Counting? && PassSummary(c, t, first)
    requires first.timer.phase.Counting? && RunSummary(c, first.timer, rest)
    requires rest.timer.remaining <= first.timer.remaining
    ensures RunSummary(c, t, Trace(rest.timer, first.effects + rest.effects))
  {
    var a, b := Checks(first.effects), Checks(rest.effects);
    ProjectionsConcat(first.effects, rest.effects);
    ChosenAllConcat(c, a, b);
    ChecksAppend(a, b, t.remaining, first.timer.remaining, rest.timer.remaining);
  }

  lemma {:induction false} StepsSummary(c: Config, t: Timer, inputs: seq<Input>)
    requires Valid(c, t) && t.phase.Counting?
    ensures RunSummary(c, t, Steps(c, t, inputs))
    decreases |inputs|
  {
    if |inputs| > 0 {
      var first := Step(c, t, inputs[0]);
      var rest := Steps(c, first.timer, inputs[1..]);
      StepSummary(c, t, inputs[0]);
      if first.timer.phase.Finished? {
        StepsFinished(c, first.timer, inputs[1..]);
      } else {
        StepsSummary(c, first.timer, inputs[1..]);
      }
      CombineSummary(c, t, first, rest);
    }
  }

  /** The whole-run invariant for a run from its start: in particular a
      completed run checked every value from `total` down to 1, and a
      stopped run checked none below the value it stopped at. */
  lemma RunInvariant(c: Config, inputs: seq<Input>)
    ensures var s := Run(c, inputs);
      && Valid(c, s.timer)
      && Descending(Checks(s.effects), c.total)
      && (s.timer.phase == Finished(Completed) ==> |Checks(s.effects)| == c.total)
      && (forall k :: 0 <= k < |Checks(s.effects)| ==> Checks(s.effects)[k] >= s.timer.remaining)
      && c.total <= s.timer.remaining + |Checks(s.effects)|
      && Announcements(s.effects) == ChosenAll(c, Checks(s.effects))
      && Bookkeeping(s.effects) == EndBookkeeping(c, s.timer.phase)
  {
    var start := Start(c);
    var passes := Steps(c, start.timer, inputs);
    if c.total > 0 {
      StepsSummary(c, start.timer, inputs);
      assert start.effects == [];
      assert start.effects + passes.effects == passes.effects;
    } else {
      StepsFinished(c, start.timer, inputs);
      CompletionProjections(c);
      assert start.effects + passes.effects == CompletionEffects(c);
    }
  }

  /** Announcements of existing clips, each played as often as its kind
      demands, chosen at values no greater than `from` and strictly decreasing. */
  predicate WellOrdered(c: Config, a: seq<Notification>, from: nat) {
    && (forall k :: 0 <= k < |a| ==>
          && FireValue(a[k].clip, c.total) <= from
          && a[k].clip in c.present
          && a[k].plays == Plays(a[k].clip))
    && (forall i, j :: 0 <= i < j < |a| ==> FireValue(a[i].clip, c.total) > FireValue(a[j].clip, c.total))
  }

  /** Clips chosen along values counting down from `from` are well ordered. */
  lemma {:induction false} ChosenDescending(c: Config, checks: seq<nat>, from: nat)
    requires Descending(checks, from)
    ensures WellOrdered(c, ChosenAll(c, checks), from)
  {
    if |checks| > 0 {
      assert Descending(checks[1..], from - 1) by {
        forall k | 0 <= k < |checks[1..]| ensures checks[1..][k] == from - 1 - k {
          assert checks[1..][k] == checks[k + 1];
        }
      }
      ChosenDescending(c, checks[1..], from - 1);
      WellOrderedCons(c, from, ChosenAll(c, checks[1..]));
    }
  }

  /** The clip chosen at `from` followed by clips well ordered below it. */
  lemma WellOrderedCons(c: Config, from: nat, rest: seq<Notification>)
    requires from >= 1 && WellOrdered(c, rest, from - 1)
    ensures WellOrdered(c, Chosen(c, from) + rest, from)
  {
    var head := Chosen(c, from);
    var a := head + rest;
    forall k | 0 <= k < |a|
      ensures FireValue(a[k].clip, c.total) <= from
      ensures a[k].clip in c.present && a[k].plays == Plays(a[k].clip)
    {
      if k < |head| {
        assert a[k] == head[k];
      } else {
        assert a[k] == rest[k - |head|];
      }
    }
    forall i, j | 0 <= i < j < |a|
      ensures FireValue(a[i].clip, c.total) > FireValue(a[j].clip, c.total)
    {
      if i < |head| {
        assert a[i] == head[i] && a[j] == rest[j - |head|];
      } else {
        assert a[i] == rest[i - |head|] && a[j] == rest[j - |head|];
      }
    }
  }

  /** Across a whole run, however it is paused or interrupted, no clip is
      announced twice, and every announcement is of an existing clip at its
      own remaining value, played as often as its kind demands. */
  lemma EachClipAtMostOnce(c: Config, inputs: seq<Input>)
    ensures var a := Announcements(Run(c, inputs).effects);
      && (forall i, j :: 0 <= i < j < |a| ==> a[i].clip != a[j].clip)
      && (forall k :: 0 <= k < |a| ==> a[k].clip in c.present && a[k].plays == Plays(a[k].clip))
  {
    var s := Run(c, inputs);
    RunInvariant(c, inputs);
    ChosenDescending(c, Checks(s.effects), c.total);
  }

  /** A clip is among those chosen along `checks` exactly when it is chosen
      at one of the values in it. */
  lemma {:induction false} ChosenAllMember(c: Config, checks: seq<nat>, n: Notification)
    ensures n in ChosenAll(c, checks) <==> exists k :: 0 <= k < |checks| && n in Chosen(c, checks[k])
  {
    if |checks| > 0 {
      ChosenAllMember(c, checks[1..], n);
      if n in ChosenAll(c, checks[1..]) {
        var k :| 0 <= k < |checks[1..]| && n in Chosen(c, checks[1..][k]);
        assert checks[1..][k] == checks[k + 1];
      }
      if exists k :: 0 <= k < |checks| && n in Chosen(c, checks[k]) {
        var k :| 0 <= k < |checks| && n in Chosen(c, checks[k]);
        if k > 0 {
          assert checks[1..][k - 1] == checks[k];
        }
      }
    }
  }

  /** Threshold rule for a whole run: the clip due at `v` is announced when
      the run reached `v` (it completed, or its count went below `v`), and
      not when the run ended above `v`. */
  lemma ClipsFireWhenReached(c: Config, inputs: seq<Input>, v: nat, n: Notification)
    requires 1 <= v <= c.total && n in Chosen(c, v)
    ensures var s := Run(c, inputs);
      && (s.timer.phase == Finished(Completed) || v > s.timer.remaining ==> n in Announcements(s.effects))
      && (v < s.timer.remaining ==> n !in Announcements(s.effects))
  {
    var s := Run(c, inputs);
    var checks := Checks(s.effects);
    RunInvariant(c, inputs);
    ChosenAllMember(c, checks, n);
    if s.timer.phase == Finished(Completed) || v > s.timer.remaining {
      var k := c.total - v;
      assert k < |checks| && checks[k] == v;
    }
  }

  /** Single-pass rule, paused: the count and the pause stay, no clip is
      considered and nothing beeps; the pass ends the run only if interrupted. */
  lemma PausedPass(c: Config, t: Timer, i: Input)
    requires t.phase.Counting? && i.interrupt != BeforePoll && PausedDuring(t.paused, i)
    ensures var s := Step(c, t, i);
      && s.timer.remaining == t.remaining
      && s.timer.paused
      && Render(t.remaining, true) in s.effects
      && Checks(s.effects) == []
      && Beep !in s.effects
      && (s.timer.phase.Counting? <==> i.interrupt == Uninterrupted)
  {
    var r := t.remaining;
    var shown: seq<Effect> := if Toggles(i) then [Toggled(true), Render(r, true)] else [];
    var before := shown + [Render(r, true)];
    ShownProjections(c, true, r);
    ProjectionsConcat(shown, [Render(r, true)]);
    assert Checks(before) == [];
    assert Beep !in before && Render(r, true) in before;
    if i.interrupt == Uninterrupted {
      assert Step(c, t, i) == Trace(Timer(r, true, Counting), before);
    } else {
      assert Step(c, t, i) == Halt(c, r, true, before);
      StopTailQuiet(c, r);
      ExtendQuiet(before, StopEffects(c, r));
    }
  }

  /** Effects that choose no clip and do not beep. */
  predicate Quiet(extra: seq<Effect>) {
    Checks(extra) == [] && Announcements(extra) == [] && Beep !in extra
  }

  lemma ExtendQuiet(effects: seq<Effect>, extra: seq<Effect>)
    requires Quiet(extra)
    ensures Checks(effects + extra) == Checks(effects)
    ensures Announcements(effects + extra) == Announcements(effects)
    ensures Beep in effects + extra <==> Beep in effects
    ensures forall e :: e in effects ==> e in effects + extra
  {
    ProjectionsConcat(effects, extra);
    assert Checks(effects) + [] == Checks(effects);
    assert Announcements(effects) + [] == Announcements(effects);
  }

  /** What the Ctrl+C handler adds is quiet. */
  lemma StopTailQuiet(c: Config, left: nat)
    ensures Quiet(StopEffects(c, left))
  {
    StopProjections(c, left);
  }

  /** So is what the completion adds. */
  lemma CompletionQuiet(c: Config)
    ensures Quiet([ShowCompleted, PlayCompletion])
    ensures Quiet(CompletionEffects(c))
  {
    CompletionProjections(c);
  }

  /** The effects of a running pass up to its wait. */
  lemma RunningEffects(c: Config, t: Timer, i: Input)
    requires !PausedDuring(t.paused, i)
    ensures var effects := (if Toggles(i) then [Toggled(false), Render(t.remaining, false)] else [])
                           + Tick(c, t.remaining);
      && Checks(effects) == [t.remaining]
      && Announcements(effects) == Chosen(c, t.remaining)
      && Bookkeeping(effects) == []
      && (Beep in effects <==> t.remaining <= 5)
  {
    var r := t.remaining;
    var shown: seq<Effect> := if Toggles(i) then [Toggled(false), Render(r, false)] else [];
    ShownProjections(c, false, r);
    TickProjections(c, r);
    ProjectionsConcat(shown, Tick(c, r));
  }

  /** Single-pass rule, running: the clip for the current value is considered,
      a beep sounds exactly over the last five seconds, and the count goes down
      by exactly one; without an interrupt the run completes exactly when that
      reaches zero. */
  lemma UnpausedPass(c: Config, t: Timer, i: Input)
    requires t.phase.Counting? && t.remaining > 0 && !PausedDuring(t.paused, i)
    requires i.interrupt == Uninterrupted || i.interrupt == AfterWait
    ensures var s := Step(c, t, i);
      && s.timer.remaining == t.remaining - 1
      && !s.timer.paused
      && Checks(s.effects) == [t.remaining]
      && Announcements(s.effects) == Chosen(c, t.remaining)
      && (Beep in s.effects <==> t.remaining <= 5)
      && (i.interrupt == Uninterrupted ==>
            (s.timer.phase.Counting? <==> t.remaining > 1)
            && (t.remaining == 1 ==> s.timer.phase == Finished(Completed)))
  {
    var r := t.remaining;
    var effects := (if Toggles(i) then [Toggled(false), Render(r, false)] else []) + Tick(c, r);
    RunningEffects(c, t, i);
    if r > 1 {
      MiddlePass(c, t, i, effects);
    } else {
      LastPass(c, t, i, effects);
    }
  }

  /** The running pass with more than one second left. */
  lemma MiddlePass(c: Config, t: Timer, i: Input, effects: seq<Effect>)
    requires t.phase.Counting? && t.remaining > 1 && !PausedDuring(t.paused, i)
    requires i.interrupt == Uninterrupted || i.interrupt == AfterWait
    requires effects == (if Toggles(i) then [Toggled(false), Render(t.remaining, false)] else [])
      + Tick(c, t.remaining)
    ensures var s := Step(c, t, i);
      && s.timer.remaining == t.remaining - 1 && !s.timer.paused
      && Checks(s.effects) == Checks(effects)
      && Announcements(s.effects) == Announcements(effects)
      && (Beep in s.effects <==> Beep in effects)
      && (i.interrupt == Uninterrupted ==> s.timer.phase == Counting)
  {
    var r := t.remaining;
    if i.interrupt == AfterWait {
      MiddleHalts(c, t, i, effects);
      StopTailQuiet(c, r - 1);
      ExtendQuiet(effects, StopEffects(c, r - 1));
    } else {
      MiddleContinues(c, t, i, effects);
    }
  }

  lemma MiddleHalts(c: Config, t: Timer, i: Input, effects: seq<Effect>)
    requires t.phase.Counting? && t.remaining > 1 && !PausedDuring(t.paused, i)
    requires i.interrupt == AfterWait
    requires effects == (if Toggles(i) then [Toggled(false), Render(t.remaining, false)] else [])
      + Tick(c, t.remaining)
    ensures Step(c, t, i) == Halt(c, t.remaining - 1, false, effects)
  {
  }

  lemma MiddleContinues(c: Config, t: Timer, i: Input, effects: seq<Effect>)
    requires t.phase.Counting? && t.remaining > 1 && !PausedDuring(t.paused, i)
    requires i.interrupt == Uninterrupted
    requires effects == (if Toggles(i) then [Toggled(false), Render(t.remaining, false)] else [])
      + Tick(c, t.remaining)
    ensures Step(c, t, i) == Trace(Timer(t.remaining - 1, false, Counting), effects)
  {
  }

  /** The running pass from one second left. */
  lemma LastPass(c: Config, t: Timer, i: Input, effects: seq<Effect>)
    requires t.phase.Counting? && t.remaining == 1 && !PausedDuring(t.paused, i)
    requires i.interrupt == Uninterrupted || i.interrupt == AfterWait
    requires effects == (if Toggles(i) then [Toggled(false), Render(1, false)] else []) + Tick(c, 1)
    ensures var s := Step(c, t, i);
      && s.timer.remaining == 0 && !s.timer.paused
      && Checks(s.effects) == Checks(effects)
      && Announcements(s.effects) == Announcements(effects)
      && (Beep in s.effects <==> Beep in effects)
      && (i.interrupt == Uninterrupted ==> s.timer.phase == Finished(Completed))
  {
    CompletionQuiet(c);
    if i.interrupt == AfterWait {
      var shown := effects + [ShowCompleted, PlayCompletion];
      LastHalts(c, t, i, effects);
      StopTailQuiet(c, 0);
      ExtendQuiet(effects, [ShowCompleted, PlayCompletion]);
      ExtendQuiet(shown, StopEffects(c, 0));
    } else {
      LastCompletes(c, t, i, effects);
      ExtendQuiet(effects, CompletionEffects(c));
    }
  }

  lemma LastHalts(c: Config, t: Timer, i: Input, effects: seq<Effect>)
    requires t.phase.Counting? && t.remaining == 1 && !PausedDuring(t.paused, i)
    requires i.interrupt == AfterWait
    requires effects == (if Toggles(i) then [Toggled(false), Render(1, false)] else []) + Tick(c, 1)
    ensures Step(c, t, i) == Halt(c, 0, false, effects + [ShowCompleted, PlayCompletion])
  {
  }

  lemma LastCompletes(c: Config, t: Timer, i: Input, effects: seq<Effect>)
    requires t.phase.Counting? && t.remaining == 1 && !PausedDuring(t.paused, i)
    requires i.interrupt == Uninterrupted
    requires effects == (if Toggles(i) then [Toggled(false), Render(1, false)] else []) + Tick(c, 1)
    ensures Step(c, t, i) == Trace(Timer(0, false, Finished(Completed)), effects + CompletionEffects(c))
  {
  }

  /** A bookkeeping effect in a list shows in its bookkeeping. */
  lemma {:induction false} BookkeepingKeeps(effects: seq<Effect>, e: Effect)
    requires e in effects && BookkeepingOf(e) == [e]
    ensures e in Bookkeeping(effects)
  {
    if effects[0] != e {
      BookkeepingKeeps(effects[1..], e);
    }
  }

  /** What the Ctrl+C handler leaves behind after effects that did no bookkeeping. */
  lemma HaltFacts(c: Config, left: nat, paused: bool, before: seq<Effect>)
    requires Bookkeeping(before) == []
    ensures var h := Halt(c, left, paused, before);
      && h.timer.phase == Finished(Stopped(left))
      && h.timer.remaining == left
      && Bookkeeping(h.effects) == StopLog(c, left)
      && |h.effects| > |StopLog(c, left)|
      && h.effects[|h.effects| - |StopLog(c, left)| - 1..] == StopEffects(c, left)
      && StartReminder !in h.effects
      && (forall n :: LogComplete(n) !in h.effects)
  {
    var h := Halt(c, left, paused, before);
    var tail := StopEffects(c, left);
    HaltProjections(c, left, paused, before);
    assert h.effects[|h.effects| - |tail|..] == tail;
    NoCompletion(h.effects, c, left);
  }

  /** Effects whose only bookkeeping is a stop update hold no completion. */
  lemma NoCompletion(effects: seq<Effect>, c: Config, left: nat)
    requires Bookkeeping(effects) == StopLog(c, left)
    ensures StartReminder !in effects
    ensures forall n :: LogComplete(n) !in effects
  {
    if StartReminder in effects {
      BookkeepingKeeps(effects, StartReminder);
    }
    forall n | LogComplete(n) in effects ensures false {
      BookkeepingKeeps(effects, LogComplete(n));
    }
  }

  /** The effects of a pass before Ctrl+C lands in it. */
  function InterruptedBefore(c: Config, t: Timer, i: Input): seq<Effect> {
    if i.interrupt == BeforePoll then []
    else
      var paused := PausedDuring(t.paused, i);
      var shown := if Toggles(i) then [Toggled(paused), Render(t.remaining, paused)] else [];
      if paused then shown + [Render(t.remaining, true)]
      else if i.interrupt == AfterWait && t.remaining <= 1 then
        shown + Tick(c, t.remaining) + [ShowCompleted, PlayCompletion]
      else shown + Tick(c, t.remaining)
  }

  /** The value of the count when Ctrl+C lands in the pass. */
  function InterruptedLeft(t: Timer, i: Input): nat {
    if i.interrupt == AfterWait && !PausedDuring(t.paused, i) && t.remaining > 0 then t.remaining - 1
    else t.remaining
  }

  lemma StepIsHalt(c: Config, t: Timer, i: Input)
    requires Valid(c, t) && t.phase.Counting? && i.interrupt != Uninterrupted
    ensures Step(c, t, i) == Halt(c, InterruptedLeft(t, i),
      if i.interrupt == BeforePoll then t.paused else PausedDuring(t.paused, i),
      InterruptedBefore(c, t, i))
  {
  }

  lemma InterruptedUnfinished(c: Config, t: Timer, i: Input)
    ensures Unfinished(c, t, InterruptedBefore(c, t, i))
    ensures t.remaining <= InterruptedLeft(t, i) + |Checks(InterruptedBefore(c, t, i))|
  {
    if i.interrupt == BeforePoll {
      assert InterruptedBefore(c, t, i) == [];
    } else {
      var r := t.remaining;
      var paused := PausedDuring(t.paused, i);
      var shown: seq<Effect> := if Toggles(i) then [Toggled(paused), Render(r, paused)] else [];
      ShownUnfinished(c, t, i, paused);
      ShownProjections(c, paused, r);
      if paused {
        PausedUnfinished(c, t, shown);
        assert InterruptedBefore(c, t, i) == shown + [Render(r, true)];
      } else {
        TickUnfinished(c, t, shown);
        if i.interrupt == AfterWait && r <= 1 {
          InterruptedCompletionUnfinished(c, t, shown + Tick(c, r));
          assert InterruptedBefore(c, t, i) == shown + Tick(c, r) + [ShowCompleted, PlayCompletion];
        } else {
          assert InterruptedBefore(c, t, i) == shown + Tick(c, r);
        }
      }
    }
  }

  /** Interrupt rule for one pass: Ctrl+C anywhere in the pass stops the run
      with the value the count had when it landed, shows that value, reports it
      to the log, and neither completes the log record nor starts the reminder. */
  lemma InterruptStops(c: Config, t: Timer, i: Input)
    requires Valid(c, t) && t.phase.Counting? && i.interrupt != Uninterrupted
    ensures var s := Step(c, t, i);
      var left := s.timer.remaining;
      && s.timer.phase == Finished(Stopped(left))
      && left == (if i.interrupt == AfterWait && !PausedDuring(t.paused, i) then t.remaining - 1
                  else t.remaining)
      && Bookkeeping(s.effects) == StopLog(c, left)
      && |s.effects| > |StopLog(c, left)|
      && s.effects[|s.effects| - |StopLog(c, left)| - 1..] == StopEffects(c, left)
      && StartReminder !in s.effects
      && (forall n :: LogComplete(n) !in s.effects)
  {
    StepIsHalt(c, t, i);
    InterruptedUnfinished(c, t, i);
    HaltFacts(c, InterruptedLeft(t, i),
      if i.interrupt == BeforePoll then t.paused else PausedDuring(t.paused, i),
      InterruptedBefore(c, t, i));
  }

  predicate NoInterrupts(inputs: seq<Input>) {
    forall k :: 0 <= k < |inputs| ==> inputs[k].interrupt == Uninterrupted
  }

  /** Number of passes over `inputs` that run unpaused, the timer having been
      `paused` before the first. */
  function Ticks(paused: bool, inputs: seq<Input>): nat
    decreases |inputs|
  {
    if |inputs| == 0 then 0
    else
      var p := PausedDuring(paused, inputs[0]);
      (if p then 0 else 1) + Ticks(p, inputs[1..])
  }

  /** Whether the timer is paused after the passes over `inputs`. */
  function PausedAfter(paused: bool, inputs: seq<Input>): bool
    decreases |inputs|
  {
    if |inputs| == 0 then paused else PausedAfter(PausedDuring(paused, inputs[0]), inputs[1..])
  }

  /** `suffix` ends `effects`. */
  predicate EndsWith(effects: seq<Effect>, suffix: seq<Effect>) {
    |suffix| <= |effects| && effects[|effects| - |suffix|..] == suffix
  }

  lemma EndsWithPrepend(front: seq<Effect>, effects: seq<Effect>, suffix: seq<Effect>)
    requires EndsWith(effects, suffix)
    ensures EndsWith(front + effects, suffix)
  {
    assert (front + effects)[|front + effects| - |suffix|..] == effects[|effects| - |suffix|..];
  }

  /** A pass without an interrupt, as the whole-run rule needs it. */
  lemma UninterruptedPass(c: Config, t: Timer, i: Input)
    requires Valid(c, t) && t.phase.Counting? && i.interrupt == Uninterrupted
    ensures var s := Step(c, t, i);
      && (PausedDuring(t.paused, i) ==> s.timer == Timer(t.remaining, true, Counting))
      && (!PausedDuring(t.paused, i) && t.remaining > 1 ==> s.timer == Timer(t.remaining - 1, false, Counting))
      && (!PausedDuring(t.paused, i) && t.remaining == 1 ==>
            s.timer.remaining == 0 && s.timer.phase == Finished(Completed)
            && EndsWith(s.effects, CompletionEffects(c)))
  {
  }

  /** Whole-run rule from a counting timer without interrupts: every unpaused
      pass takes one second off, paused passes take nothing; once as many
      unpaused passes as seconds left have run, the run has completed and its
      effects end with the completion effects. */
  lemma {:induction false} UninterruptedSteps(c: Config, t: Timer, inputs: seq<Input>)
    requires Valid(c, t) && t.phase.Counting? && NoInterrupts(inputs)
    ensures var s := Steps(c, t, inputs);
      var n := Ticks(t.paused, inputs);
      && (n < t.remaining ==> s.timer == Timer(t.remaining - n, PausedAfter(t.paused, inputs), Counting))
      && (n >= t.remaining ==>
            s.timer.remaining == 0 && s.timer.phase == Finished(Completed)
            && EndsWith(s.effects, CompletionEffects(c)))
    decreases |inputs|
  {
    if |inputs| > 0 {
      var first := Step(c, t, inputs[0]);
      var rest := Steps(c, first.timer, inputs[1..]);
      assert NoInterrupts(inputs[1..]) by {
        forall k | 0 <= k < |inputs[1..]| ensures inputs[1..][k].interrupt == Uninterrupted {
          assert inputs[1..][k] == inputs[k + 1];
        }
      }
      UninterruptedPass(c, t, inputs[0]);
      StepSummary(c, t, inputs[0]);
      if first.timer.phase.Finished? {
        StepsFinished(c, first.timer, inputs[1..]);
        assert first.effects + rest.effects == first.effects;
      } else {
        UninterruptedSteps(c, first.timer, inputs[1..]);
        if Ticks(first.timer.paused, inputs[1..]) >= first.timer.remaining {
          EndsWithPrepend(first.effects, rest.effects, CompletionEffects(c));
        }
      }
    }
  }

  /** Whole-run rule: a run without interrupts that gets at least `total`
      unpaused passes completes with nothing left, its effects end with the
      completion effects, and its only bookkeeping is the completion update
      followed by the reminder; with fewer it is still counting, exactly that
      many seconds down. */
  lemma WholeRun(c: Config, inputs: seq<Input>)
    requires NoInterrupts(inputs)
    ensures var s := Run(c, inputs);
      var n := Ticks(false, inputs);
      && (n >= c.total ==>
            && s.timer.remaining == 0
            && s.timer.phase == Finished(Completed)
            && EndsWith(s.effects, CompletionEffects(c))
            && Bookkeeping(s.effects) == CompleteLog(c) + [StartReminder])
      && (n < c.total ==> s.timer.phase == Counting && s.timer.remaining == c.total - n)
  {
    var start := Start(c);
    var passes := Steps(c, start.timer, inputs);
    RunInvariant(c, inputs);
    if c.total > 0 {
      UninterruptedSteps(c, start.timer, inputs);
      assert start.effects + passes.effects == passes.effects;
    } else {
      StepsFinished(c, start.timer, inputs);
      assert start.effects + passes.effects == CompletionEffects(c);
    }
  }

  /** Without the pause key every pass runs unpaused. */
  lemma {:induction false} NoPauseKeyTicks(inputs: seq<Input>)
    requires forall k :: 0 <= k < |inputs| ==> !Toggles(inputs[k])
    ensures Ticks(false, inputs) == |inputs|
  {
    if |inputs| > 0 {
      assert !Toggles(inputs[0]);
      NoPauseKeyTicks(inputs[1..]);
    }
  }

  /** Interrupt rule for a run: a run with an interrupt in it has ended, and
      unless it completed first it ended stopped at the value it was left at,
      with the stop update as its only bookkeeping. */
  lemma InterruptedRun(c: Config, inputs: seq<Input>, k: nat)
    requires k < |inputs| && inputs[k].interrupt != Uninterrupted
    ensures var s := Run(c, inputs);
      && s.timer.phase.Finished?
      && (s.timer.phase.outcome.Stopped? ==>
            s.timer.phase.outcome.left == s.timer.remaining
            && Bookkeeping(s.effects) == StopLog(c, s.timer.remaining))
  {
    RunInvariant(c, inputs);
  }
}

=== FILE: display.dfy ===
/** The status line under the countdown (the last branch of `display_timer`):
    a pause notice while paused, three warning levels over the last minute,
    a running notice before that, and the done line once nothing is left. */
module Display {

  datatype Status = Paused | Last10 | Last30 | Last60 | Running | Done

  /** How close to the end the line says the session is; `Paused` is not on the scale. */
  function Urgency(s: Status): nat {
    match s
    case Paused => 0
    case Running => 1
    case Last60 => 2
    case Last30 => 3
    case Last10 => 4
    case Done => 5
  }

  function StatusLine(remaining: int, paused: bool): (s: Status)
    ensures s == Done <==> remaining <= 0
    ensures s == Paused <==> remaining > 0 && paused
    ensures s == Last10 <==> 0 < remaining <= 10 && !paused
    ensures s == Last30 <==> 10 < remaining <= 30 && !paused
    ensures s == Last60 <==> 30 < remaining <= 60 && !paused
    ensures s == Running <==> remaining > 60 && !paused
  {
    if remaining > 0 then
      if paused then Paused
      else if remaining <= 10 then Last10
      else if remaining <= 30 then Last30
      else if remaining <= 60 then Last60
      else Running
    else
      Done
  }

  /** While the timer runs, less time left never shows a calmer line. */
  lemma UrgencyGrows(earlier: int, later: int)
    requires later <= earlier
    ensures Urgency(StatusLine(earlier, false)) <= Urgency(StatusLine(later, false))
  {
  }

  /** Pausing changes the line only while time is left, and then to the pause notice. */
  lemma PauseShowsOnlyWhileRunning(remaining: int)
    ensures remaining <= 0 ==> StatusLine(remaining, true) == StatusLine(remaining, false)
    ensures remaining > 0 ==> StatusLine(remaining, true) == Paused != StatusLine(remaining, false)
  {
  }
}

=== FILE: durations.dfy ===
/** Reading a session length from the user: the duration text decoder
    (`parse_time_input`), the rules of the free-form prompt (`get_custom_input`)
    and the numbered menu (`get_user_input`). Each prompt loops until it gets
    an acceptable answer; here one answer is judged at a time. */
module Durations {
  import opened Wrappers
  import opened Text

  /** `int(part)` failed: the text before a unit letter is not a number. */
  datatype ParseError = NotANumber(part: string)

  /** `int(part) if part else 0`: an empty part counts as zero. */
  function UnitAmount(part: string): (r: Result<nat, ParseError>)
    ensures r.Ok? <==> AllDigits(part)
    ensures r.Ok? ==> r.value == Value(part)
  {
    if part == "" then Ok(0)
    else if AllDigits(part) then Ok(Value(part))
    else Err(NotANumber(part))
  }

  /** The amount read for one unit and the text that follows it. */
  datatype UnitRead = UnitRead(amount: nat, rest: string)

  /** Reads `<digits><unit>` off the front of `text` when `unit` occurs exactly
      once; otherwise the unit counts as absent and the text is left alone. */
  function ReadUnit(text: string, unit: char): (r: Result<UnitRead, ParseError>)
    ensures unit !in text ==> r == Ok(UnitRead(0, text))
    ensures r.Ok? && r.value.rest == text ==> r.value.amount == 0
    ensures r.Ok? && r.value.rest != text ==>
      exists amount :: && text == amount + [unit] + r.value.rest
                       && unit !in amount && unit !in r.value.rest
                       && AllDigits(amount) && r.value.amount == Value(amount)
    ensures r.Err? ==>
      exists amount, rest :: && text == amount + [unit] + rest
                             && unit !in amount && unit !in rest
                             && !AllDigits(amount) && r == Err(NotANumber(amount))
  {
    var parts := Split(text, unit);
    if unit !in text then SplitWithout(text, unit); Ok(UnitRead(0, text))
    else if |parts| == 2 then
      SplitInTwo(text, unit);
      var amount :- UnitAmount(parts[0]);
      Ok(UnitRead(amount, parts[1]))
    else
      Ok(UnitRead(0, text))
  }

  /** A unit letter that occurs twice or more is skipped: it adds nothing and
      the text is left alone. */
  lemma RepeatedUnitSkipped(text: string, unit: char, a: string, b: string, c: string)
    requires text == a + [unit] + b + [unit] + c
    ensures ReadUnit(text, unit) == Ok(UnitRead(0, text))
  {
    var r := ReadUnit(text, unit);
    assert multiset(text)[unit] >= 2;
    if r.Err? {
      var amount, rest :| && text == amount + [unit] + rest
                          && unit !in amount && unit !in rest
                          && !AllDigits(amount) && r == Err(NotANumber(amount));
      OnceInText(text, unit, amount, rest);
    } else if r.value.rest != text {
      var amount :| && text == amount + [unit] + r.value.rest
                    && unit !in amount && unit !in r.value.rest
                    && AllDigits(amount) && r.value.amount == Value(amount);
      OnceInText(text, unit, amount, r.value.rest);
    }
  }

  /** A text split around a single unit holds that unit once. */
  lemma OnceInText(text: string, unit: char, amount: string, rest: string)
    requires text == amount + [unit] + rest && unit !in amount && unit !in rest
    ensures multiset(text)[unit] == 1
  {
    assert multiset(text) == multiset(amount) + multiset([unit]) + multiset(rest);
  }

  /** A unit letter that occurs exactly once is read off: the amount before it
      when that is empty or digits, a format error otherwise. */
  lemma ReadUnitOnce(text: string, unit: char, amount: string, rest: string)
    requires text == amount + [unit] + rest && unit !in amount && unit !in rest
    ensures AllDigits(amount) ==> ReadUnit(text, unit) == Ok(UnitRead(Value(amount), rest))
    ensures !AllDigits(amount) ==> ReadUnit(text, unit) == Err(NotANumber(amount))
  {
    assert Join([amount, rest], unit) == text;
    SplitJoin([amount, rest], unit);
  }

  /** Whatever follows the units counts as seconds when, stripped, it is a bare number. */
  function TailSeconds(rest: string): nat {
    var tail := Strip(rest);
    if IsDecimal(tail) then Value(tail) else 0
  }

  /** `parse_time_input`: a bare number of seconds, or hours, minutes and
      seconds marked `h`, `m`, `s` (in that order), optionally followed by a
      bare number of extra seconds. Unrecognised leftovers are ignored. */
  function ParseTimeInput(text: string): (r: Result<nat, ParseError>)
    ensures IsDecimal(text) ==> r == Ok(Value(text))
  {
    if IsDecimal(text) then Ok(Value(text)) else ByUnits(text)
  }

  /** The unit-by-unit reading: hours first, then minutes in what follows
      them, then seconds in what follows those, then bare trailing seconds. */
  function ByUnits(text: string): (r: Result<nat, ParseError>)
    ensures 'h' !in text && 'm' !in text && 's' !in text ==> r == Ok(TailSeconds(text))
  {
    match ReadUnit(text, 'h')
    case Err(e) => Err(e)
    case Ok(hours) => AfterHours(hours)
  }

  function AfterHours(hours: UnitRead): Result<nat, ParseError> {
    match ReadUnit(hours.rest, 'm')
    case Err(e) => Err(e)
    case Ok(minutes) => AfterMinutes(hours.amount, minutes)
  }

  function AfterMinutes(h: nat, minutes: UnitRead): Result<nat, ParseError> {
    match ReadUnit(minutes.rest, 's')
    case Err(e) => Err(e)
    case Ok(seconds) => Ok(h * 3600 + minutes.amount * 60 + seconds.amount + TailSeconds(seconds.rest))
  }

  /** A digit string after the units is added in full. */
  lemma TailOfDigits(rest: string)
    requires AllDigits(rest)
    ensures TailSeconds(rest) == Value(rest)
  {
    if |rest| > 0 {
      assert !IsSpace(rest[0]) && !IsSpace(rest[|rest| - 1]);
    }
  }

  /** Text of one optional unit: its digits followed by the unit letter. */
  function UnitText(amount: Option<string>, unit: char): string {
    match amount
    case Some(d) => d + [unit]
    case None => ""
  }

  function AmountOf(amount: Option<string>): nat
    requires amount.Some? ==> AllDigits(amount.value)
  {
    match amount
    case Some(d) => Value(d)
    case None => 0
  }

  /** The duration notation: optional hours, minutes and seconds, each an
      optional digit string before its letter, then optional bare seconds. */
  function Compose(h: Option<string>, m: Option<string>, s: Option<string>, tail: string): string {
    UnitText(h, 'h') + UnitText(m, 'm') + UnitText(s, 's') + tail
  }

  predicate WellFormed(h: Option<string>, m: Option<string>, s: Option<string>, tail: string) {
    && (h.Some? ==> AllDigits(h.value))
    && (m.Some? ==> AllDigits(m.value))
    && (s.Some? ==> AllDigits(s.value))
    && AllDigits(tail)
  }

  lemma NoLetterInDigits(d: string, c: char)
    requires AllDigits(d) && !IsDigit(c)
    ensures c !in d
  {
  }

  /** A unit text holds no letter other than its own. */
  lemma NoOtherLetter(amount: Option<string>, unit: char, c: char)
    requires amount.Some? ==> AllDigits(amount.value)
    requires c != unit && !IsDigit(c)
    ensures c !in UnitText(amount, unit)
  {
    if amount.Some? {
      NoLetterInDigits(amount.value, c);
    }
  }

  /** Reading one optional unit off the front of the text. */
  lemma ReadOptionalUnit(amount: Option<string>, unit: char, rest: string)
    requires amount.Some? ==> AllDigits(amount.value)
    requires !IsDigit(unit) && unit !in rest
    ensures ReadUnit(UnitText(amount, unit) + rest, unit) == Ok(UnitRead(AmountOf(amount), rest))
  {
    var text := UnitText(amount, unit) + rest;
    if amount.Some? {
      var digits := amount.value;
      NoLetterInDigits(digits, unit);
      assert Join([digits, rest], unit) == text;
      SplitJoin([digits, rest], unit);
    } else {
      assert text == rest;
      SplitWithout(rest, unit);
    }
  }

  /** A text holding a unit letter is not a bare number. */
  lemma ComposedNotDecimal(h: Option<string>, m: Option<string>, s: Option<string>, tail: string)
    requires h.Some? || m.Some? || s.Some?
    ensures !IsDecimal(Compose(h, m, s, tail))
  {
    var text := Compose(h, m, s, tail);
    if h.Some? {
      assert text[|h.value|] == 'h';
    } else if m.Some? {
      assert text[|m.value|] == 'm';
    } else {
      assert text[|s.value|] == 's';
    }
  }

  /** The decoder once the text is known not to be a bare number. */
  lemma ParseByUnits(text: string, hours: UnitRead, minutes: UnitRead, seconds: UnitRead,
                     h: nat, m: nat, s: nat, tail: nat)
    requires !IsDecimal(text)
    requires ReadUnit(text, 'h') == Ok(hours) && hours.amount == h
    requires ReadUnit(hours.rest, 'm') == Ok(minutes) && minutes.amount == m
    requires ReadUnit(minutes.rest, 's') == Ok(seconds) && seconds.amount == s
    requires TailSeconds(seconds.rest) == tail
    ensures ParseTimeInput(text) == Ok(h * 3600 + m * 60 + s + tail)
  {
    SecondsStep(h, minutes, seconds, m, s, tail);
    MinutesStep(hours, minutes);
    HoursStep(text, hours);
  }

  lemma SecondsStep(h: nat, minutes: UnitRead, seconds: UnitRead, m: nat, s: nat, tail: nat)
    requires minutes.amount == m
    requires ReadUnit(minutes.rest, 's') == Ok(seconds) && seconds.amount == s
    requires TailSeconds(seconds.rest) == tail
    ensures AfterMinutes(h, minutes) == Ok(h * 3600 + m * 60 + s + tail)
  {
  }

  lemma MinutesStep(hours: UnitRead, minutes: UnitRead)
    requires ReadUnit(hours.rest, 'm') == Ok(minutes)
    ensures AfterHours(hours) == AfterMinutes(hours.amount, minutes)
  {
  }

  lemma HoursStep(text: string, hours: UnitRead)
    requires !IsDecimal(text) && ReadUnit(text, 'h') == Ok(hours)
    ensures ParseTimeInput(text) == AfterHours(hours)
  {
  }

  /** The unit-by-unit reading of a text in the notation, the amounts read
      being `h`, `m`, `s` and `t`. */
  lemma ParseUnits(hours: Option<string>, minutes: Option<string>, seconds: Option<string>,
                   tail: string, h: nat, m: nat, s: nat, t: nat)
    requires WellFormed(hours, minutes, seconds, tail)
    requires h == AmountOf(hours) && m == AmountOf(minutes) && s == AmountOf(seconds)
    requires t == Value(tail)
    requires !IsDecimal(Compose(hours, minutes, seconds, tail))
    ensures ParseTimeInput(Compose(hours, minutes, seconds, tail)) == Ok(h * 3600 + m * 60 + s + t)
  {
    var text := Compose(hours, minutes, seconds, tail);
    var ss := UnitText(seconds, 's') + tail;
    var ms := UnitText(minutes, 'm') + ss;
    ReadsHours(hours, minutes, seconds, tail);
    ReadsMinutes(minutes, seconds, tail);
    ReadsSeconds(seconds, tail);
    TailOfDigits(tail);
    ParseByUnits(text, UnitRead(h, ms), UnitRead(m, ss), UnitRead(s, tail), h, m, s, t);
  }

  lemma ReadsHours(hours: Option<string>, minutes: Option<string>, seconds: Option<string>, tail: string)
    requires WellFormed(hours, minutes, seconds, tail)
    ensures ReadUnit(Compose(hours, minutes, seconds, tail), 'h')
      == Ok(UnitRead(AmountOf(hours), UnitText(minutes, 'm') + (UnitText(seconds, 's') + tail)))
  {
    var ms := UnitText(minutes, 'm') + (UnitText(seconds, 's') + tail);
    assert Compose(hours, minutes, seconds, tail) == UnitText(hours, 'h') + ms;
    NoLetterInDigits(tail, 'h');
    NoOtherLetter(seconds, 's', 'h');
    NoOtherLetter(minutes, 'm', 'h');
    ReadOptionalUnit(hours, 'h', ms);
  }

  lemma ReadsMinutes(minutes: Option<string>, seconds: Option<string>, tail: string)
    requires minutes.Some? ==> AllDigits(minutes.value)
    requires seconds.Some? ==> AllDigits(seconds.value)
    requires AllDigits(tail)
    ensures ReadUnit(UnitText(minutes, 'm') + (UnitText(seconds, 's') + tail), 'm')
      == Ok(UnitRead(AmountOf(minutes), UnitText(seconds, 's') + tail))
  {
    NoLetterInDigits(tail, 'm');
    NoOtherLetter(seconds, 's', 'm');
    ReadOptionalUnit(minutes, 'm', UnitText(seconds, 's') + tail);
  }

  lemma ReadsSeconds(seconds: Option<string>, tail: string)
    requires seconds.Some? ==> AllDigits(seconds.value)
    requires AllDigits(tail)
    ensures ReadUnit(UnitText(seconds, 's') + tail, 's') == Ok(UnitRead(AmountOf(seconds), tail))
  {
    NoLetterInDigits(tail, 's');
    ReadOptionalUnit(seconds, 's', tail);
  }

  /** Every text in the notation decodes to hours·3600 + minutes·60 + seconds
      plus the trailing bare seconds, `h`, `m`, `s` and `t` being the amounts
      written in it. */
  lemma ParseComposed(hours: Option<string>, minutes: Option<string>, seconds: Option<string>,
                      tail: string, h: nat, m: nat, s: nat, t: nat)
    requires WellFormed(hours, minutes, seconds, tail)
    requires h == AmountOf(hours) && m == AmountOf(minutes) && s == AmountOf(seconds)
    requires t == Value(tail)
    ensures ParseTimeInput(Compose(hours, minutes, seconds, tail)) == Ok(h * 3600 + m * 60 + s + t)
  {
    if hours.None? && minutes.None? && seconds.None? && |tail| > 0 {
      ParseBare(tail, t);
    } else {
      if hours.None? && minutes.None? && seconds.None? {
        assert Compose(hours, minutes, seconds, tail) == "";
      } else {
        ComposedNotDecimal(hours, minutes, seconds, tail);
      }
      ParseUnits(hours, minutes, seconds, tail, h, m, s, t);
    }
  }

  /** Without unit letters the notation is a bare number of seconds. */
  lemma ParseBare(tail: string, t: nat)
    requires IsDecimal(tail) && t == Value(tail)
    ensures ParseTimeInput(Compose(None, None, None, tail)) == Ok(0 * 3600 + 0 * 60 + 0 + t)
  {
    assert Compose(None, None, None, tail) == tail;
    assert ParseTimeInput(tail) == Ok(t);
  }

  /** The unit examples the custom-input prompt shows the user, and one with
      trailing bare seconds. */
  lemma DocumentedExamples()
    ensures ParseTimeInput("5m") == Ok(300)
    ensures ParseTimeInput("1h30m") == Ok(5400)
    ensures ParseTimeInput("2h") == Ok(7200)
    ensures ParseTimeInput("30s") == Ok(30)
    ensures ParseTimeInput("1m30") == Ok(90)
  {
    FiveMinutes();
    HourAndHalf();
    TwoHours();
    ThirtySeconds();
    MinuteAndHalf();
  }

  lemma FiveMinutes()
    ensures ParseTimeInput("5m") == Ok(300)
  {
    Example(None, Some("5"), None, "", 0, 5, 0, 0, "5m");
  }

  lemma HourAndHalf()
    ensures ParseTimeInput("1h30m") == Ok(5400)
  {
    ThirtyValue();
    assert UnitText(Some("1"), 'h') + UnitText(Some("30"), 'm') == "1h30m";
    assert Compose(Some("1"), Some("30"), None, "") == "1h30m";
    Example(Some("1"), Some("30"), None, "", 1, 30, 0, 0, "1h30m");
  }

  lemma TwoHours()
    ensures ParseTimeInput("2h") == Ok(7200)
  {
    Example(Some("2"), None, None, "", 2, 0, 0, 0, "2h");
  }

  lemma ThirtySeconds()
    ensures ParseTimeInput("30s") == Ok(30)
  {
    ThirtyValue();
    Example(None, None, Some("30"), "", 0, 0, 30, 0, "30s");
  }

  lemma MinuteAndHalf()
    ensures ParseTimeInput("1m30") == Ok(90)
  {
    ThirtyValue();
    Example(None, Some("1"), None, "30", 0, 1, 0, 30, "1m30");
  }

  lemma ThirtyValue()
    ensures AllDigits("30") && Value("30") == 30
  {
    assert "30"[..1] == "3";
  }

  lemma Example(hours: Option<string>, minutes: Option<string>, seconds: Option<string>,
                tail: string, h: nat, m: nat, s: nat, t: nat, text: string)
    requires WellFormed(hours, minutes, seconds, tail)
    requires h == AmountOf(hours) && m == AmountOf(minutes) && s == AmountOf(seconds)
    requires t == Value(tail)
    requires text == Compose(hours, minutes, seconds, tail)
    ensures ParseTimeInput(text) == Ok(h * 3600 + m * 60 + s + t)
  {
    ParseComposed(hours, minutes, seconds, tail, h, m, s, t);
  }

  /** The bare-number examples the prompt shows next to them. */
  lemma DocumentedBareExamples()
    ensures ParseTimeInput("300") == Ok(300)
    ensures ParseTimeInput("5400") == Ok(5400)
    ensures ParseTimeInput("7200") == Ok(7200)
    ensures ParseTimeInput("30") == Ok(30)
  {
    ThirtyValue();
    ThreeHundredValue();
    FiftyFourHundredValue();
    SeventyTwoHundredValue();
  }

  lemma ThreeHundredValue()
    ensures IsDecimal("300") && Value("300") == 300
  {
    ThirtyValue();
    assert "300"[..2] == "30";
  }

  lemma FiftyFourHundredValue()
    ensures IsDecimal("5400") && Value("5400") == 5400
  {
    assert "54"[..1] == "5" && Value("5") == 5;
    assert "540"[..2] == "54" && Value("54") == 54;
    assert "5400"[..3] == "540" && Value("540") == 540;
  }

  lemma SeventyTwoHundredValue()
    ensures IsDecimal("7200") && Value("7200") == 7200
  {
    assert "72"[..1] == "7" && Value("7") == 7;
    assert "720"[..2] == "72" && Value("72") == 72;
    assert "7200"[..3] == "720" && Value("720") == 720;
  }

  /** A non-numeric amount before a single `h` is a format error. */
  lemma BadHoursRejected(text: string, before: string, after: string)
    requires text == before + "h" + after
    requires 'h' !in before && 'h' !in after && !AllDigits(before)
    ensures ParseTimeInput(text).Err?
  {
    assert !IsDecimal(text) by {
      assert text[|before|] == 'h';
    }
    assert Join([before, after], 'h') == text;
    SplitJoin([before, after], 'h');
  }

  /** A non-numeric amount before a single `m` is a format error when no `h`
      came before it. */
  lemma BadMinutesRejected(text: string, before: string, after: string)
    requires text == before + "m" + after && 'h' !in text
    requires 'm' !in before && 'm' !in after && !AllDigits(before)
    ensures ParseTimeInput(text).Err?
  {
    assert !IsDecimal(text) by {
      assert text[|before|] == 'm';
    }
    SplitWithout(text, 'h');
    assert ReadUnit(text, 'h') == Ok(UnitRead(0, text));
    ReadUnitOnce(text, 'm', before, after);
  }

  /** A non-numeric amount before a single `s` is a format error when no `h`
      or `m` came before it. */
  lemma BadSecondsRejected(text: string, before: string, after: string)
    requires text == before + "s" + after && 'h' !in text && 'm' !in text
    requires 's' !in before && 's' !in after && !AllDigits(before)
    ensures ParseTimeInput(text).Err?
  {
    assert !IsDecimal(text) by {
      assert text[|before|] == 's';
    }
    SplitWithout(text, 'h');
    SplitWithout(text, 'm');
    assert ReadUnit(text, 'h') == Ok(UnitRead(0, text));
    assert ReadUnit(text, 'm') == Ok(UnitRead(0, text));
    ReadUnitOnce(text, 's', before, after);
  }

  /** Why a free-form answer is asked for again. */
  datatype Rejection = Blank | BadFormat | NotPositive

  /** `get_custom_input` for one answer: trimmed and lower-cased, it must be
      non-blank, decode, and be more than zero seconds. */
  function CustomDuration(answer: string): (r: Result<nat, Rejection>)
    ensures r.Ok? ==> r.value > 0
    ensures r.Ok? <==> (var t := Lower(Strip(answer));
                        t != "" && ParseTimeInput(t).Ok? && ParseTimeInput(t).value > 0)
    ensures r.Ok? ==> ParseTimeInput(Lower(Strip(answer))) == Ok(r.value)
    ensures r == Err(BadFormat) <==> Lower(Strip(answer)) != "" && ParseTimeInput(Lower(Strip(answer))).Err?
    ensures r == Err(Blank) <==> Lower(Strip(answer)) == ""
    ensures r == Err(NotPositive) <==> Lower(Strip(answer)) != "" && ParseTimeInput(Lower(Strip(answer))) == Ok(0)
  {
    Judge(Lower(Strip(answer)))
  }

  /** The judgement on the cleaned answer `text`. */
  function Judge(text: string): (r: Result<nat, Rejection>)
    ensures r.Ok? <==> text != "" && ParseTimeInput(text).Ok? && ParseTimeInput(text).value > 0
    ensures r.Ok? ==> ParseTimeInput(text) == Ok(r.value)
    ensures r == Err(BadFormat) <==> text != "" && ParseTimeInput(text).Err?
    ensures r == Err(Blank) <==> text == ""
    ensures r == Err(NotPositive) <==> text != "" && ParseTimeInput(text) == Ok(0)
  {
    var parsed := ParseTimeInput(text);
    if text == "" then Err(Blank)
    else if parsed.Err? then Err(BadFormat)
    else if parsed.value == 0 then Err(NotPositive)
    else Ok(parsed.value)
  }

  /** What the numbered menu yields: a preset length or a switch to free-form input. */
  datatype Choice = Preset(seconds: nat) | Custom

  datatype MenuRejection = NoChoice | OutOfRange

  /** `get_user_input` for one answer to "select (1-5)". */
  function MenuChoice(answer: string): (r: Result<Choice, MenuRejection>)
    ensures r.Ok? && r.value.Preset? ==> r.value.seconds in {30 * 60, 20 * 60, 15 * 60, 10 * 60}
    ensures r.Ok? <==> Strip(answer) in {"1", "2", "3", "4", "5"}
    ensures r == Ok(Preset(30 * 60)) <==> Strip(answer) == "1"
    ensures r == Ok(Preset(20 * 60)) <==> Strip(answer) == "2"
    ensures r == Ok(Preset(15 * 60)) <==> Strip(answer) == "3"
    ensures r == Ok(Preset(10 * 60)) <==> Strip(answer) == "4"
    ensures r == Ok(Custom) <==> Strip(answer) == "5"
    ensures r == Err(NoChoice) <==> Strip(answer) == ""
  {
    var choice := Strip(answer);
    if choice == "" then Err(NoChoice)
    else if choice == "1" then Ok(Preset(30 * 60))
    else if choice == "2" then Ok(Preset(20 * 60))
    else if choice == "3" then Ok(Preset(15 * 60))
    else if choice == "4" then Ok(Preset(10 * 60))
    else if choice == "5" then Ok(Custom)
    else Err(OutOfRange)
  }
}

=== FILE: notifications.dfy ===
/** Choice of the voice clip announced at a given remaining time
    (`play_time_notification` and `is_overlapping_with_other_notifications`).
    Whether a clip's audio file exists is the parameter `present`; playing it is
    left to the caller, which receives the clip and how many times to play it. */
module Notifications {
  import opened Wrappers

  /** The announcement clips: half-time, 15/10/5/3/1 minutes and 30/10 seconds left. */
  datatype Clip = Half | Min15 | Min10 | Min5 | Min3 | Min1 | Sec30 | Sec10

  /** Play `clip` `plays` times in a row. */
  datatype Notification = Notification(clip: Clip, plays: nat)

  /** Remaining-second values that have a clip of their own. */
  const FixedTimes: seq<nat> := [15 * 60, 10 * 60, 5 * 60, 3 * 60, 1 * 60, 30, 10]

  /** Half-time coincides with one of the fixed announcements. */
  predicate IsOverlapping(remaining: nat) {
    remaining in FixedTimes
  }

  /** The 3- and 1-minute clips are played twice, every other clip once. */
  function Plays(clip: Clip): nat {
    if clip == Min3 || clip == Min1 then 2 else 1
  }

  /** The remaining time at which `clip` is announced in a session of `total` seconds. */
  function FireValue(clip: Clip, total: nat): nat {
    match clip
    case Half => total / 2
    case Min15 => 15 * 60
    case Min10 => 10 * 60
    case Min5 => 5 * 60
    case Min3 => 3 * 60
    case Min1 => 1 * 60
    case Sec30 => 30
    case Sec10 => 10
  }

  /** The clip to play at `remaining` seconds left of `total`, tested in the
      order the timer tests them: half-time first, then the fixed times.
      A clip whose file is missing falls through to the later tests. */
  function Select(remaining: nat, total: nat, present: set<Clip>): (r: Option<Notification>)
    ensures r.Some? ==> r.value.clip in present
    ensures r.Some? ==> remaining == FireValue(r.value.clip, total)
    ensures r.Some? ==> r.value.plays == Plays(r.value.clip)
    ensures r.Some? && r.value.clip == Min15 ==> total >= 30 * 60
  {
    if remaining == total / 2 && !IsOverlapping(remaining) && Half in present then
      Some(Notification(Half, 1))
    else if remaining == 15 * 60 && total >= 30 * 60 && Min15 in present then
      Some(Notification(Min15, 1))
    else if remaining == 10 * 60 && Min10 in present then
      Some(Notification(Min10, 1))
    else if remaining == 5 * 60 && Min5 in present then
      Some(Notification(Min5, 1))
    else if remaining == 3 * 60 && Min3 in present then
      Some(Notification(Min3, 2))
    else if remaining == 1 * 60 && Min1 in present then
      Some(Notification(Min1, 2))
    else if remaining == 30 && Sec30 in present then
      Some(Notification(Sec30, 1))
    else if remaining == 10 && Sec10 in present then
      Some(Notification(Sec10, 1))
    else
      None
  }

  /** One row of the fixed announcement table; `minTotal` is the shortest
      session in which the row applies. */
  datatype Threshold = Threshold(at: nat, clip: Clip, plays: nat, minTotal: nat)

  const Table: seq<Threshold> := [
    Threshold(900, Min15, 1, 1800),
    Threshold(600, Min10, 1, 0),
    Threshold(300, Min5, 1, 0),
    Threshold(180, Min3, 2, 0),
    Threshold(60, Min1, 2, 0),
    Threshold(30, Sec30, 1, 0),
    Threshold(10, Sec10, 1, 0)
  ]

  /** The first row of `table` for `remaining`. */
  function Lookup(table: seq<Threshold>, remaining: nat): (r: Option<Threshold>)
    ensures r.Some? ==> r.value in table && r.value.at == remaining
    ensures r.None? ==> forall i :: 0 <= i < |table| ==> table[i].at != remaining
  {
    if |table| == 0 then None
    else if table[0].at == remaining then Some(table[0])
    else Lookup(table[1..], remaining)
  }

  /** Reference reading of the schedule: consult the fixed table first and
      only fall back to half-time when no fixed row exists for `remaining`. */
  function FixedFirst(remaining: nat, total: nat, present: set<Clip>): Option<Notification> {
    match Lookup(Table, remaining)
    case Some(t) =>
      if total >= t.minTotal && t.clip in present then Some(Notification(t.clip, t.plays)) else None
    case None =>
      if remaining == total / 2 && Half in present then Some(Notification(Half, 1)) else None
  }

  /** Testing half-time first, as the timer does, selects the same clip as
      consulting the fixed table first: the half-time test is guarded by
      "not a fixed time", and a missing clip selects nothing further. */
  lemma SelectIsFixedFirst(remaining: nat, total: nat, present: set<Clip>)
    ensures Select(remaining, total, present) == FixedFirst(remaining, total, present)
  {
    LookupTable(remaining);
  }

  /** The row the fixed table has for each remaining value. */
  lemma LookupTable(remaining: nat)
    ensures remaining !in FixedTimes ==> Lookup(Table, remaining).None?
    ensures remaining == 900 ==> Lookup(Table, remaining) == Some(Table[0])
    ensures remaining == 600 ==> Lookup(Table, remaining) == Some(Table[1])
    ensures remaining == 300 ==> Lookup(Table, remaining) == Some(Table[2])
    ensures remaining == 180 ==> Lookup(Table, remaining) == Some(Table[3])
    ensures remaining == 60 ==> Lookup(Table, remaining) == Some(Table[4])
    ensures remaining == 30 ==> Lookup(Table, remaining) == Some(Table[5])
    ensures remaining == 10 ==> Lookup(Table, remaining) == Some(Table[6])
  {
    if remaining !in FixedTimes {
      assert forall i :: 0 <= i < |Table| ==> Table[i].at == FixedTimes[i];
    }
  }

  /** The half-time clip is chosen exactly when the remaining time is half the
      total (integer division), that value is not a fixed time, and the clip exists. */
  lemma HalfTimeRule(remaining: nat, total: nat, present: set<Clip>)
    ensures Select(remaining, total, present) == Some(Notification(Half, 1))
      <==> remaining == total / 2 && remaining !in FixedTimes && Half in present
    ensures remaining !in FixedTimes && remaining != total / 2 ==>
      Select(remaining, total, present) == None
  {
  }

  /** At 15 minutes left of a session shorter than 30 minutes nothing plays. */
  lemma FifteenMinuteRule(total: nat, present: set<Clip>)
    requires total < 30 * 60
    ensures Select(15 * 60, total, present) == None
  {
  }
}

=== FILE: session.dfy ===
/** One timer session as the main loop runs it: a log record is opened for the
    chosen length and task, the countdown runs with that record's number, and
    the log updates the countdown asks for are applied to the log. */
module Session {
  import opened Wrappers
  import Notifications
  import SessionLog
  import Countdown

  /** Applies one effect to the log: the completion and stop updates change it,
      every other effect leaves it alone. */
  function ApplyEffect(logs: seq<SessionLog.Entry>, e: Countdown.Effect): seq<SessionLog.Entry> {
    match e
    case LogComplete(n) => SessionLog.Complete(logs, n)
    case LogStop(n, left) => SessionLog.Stop(logs, n, left)
    case _ => logs
  }

  function ApplyEffects(logs: seq<SessionLog.Entry>, effects: seq<Countdown.Effect>): seq<SessionLog.Entry>
    decreases |effects|
  {
    if |effects| == 0 then logs else ApplyEffects(ApplyEffect(logs, effects[0]), effects[1..])
  }

  /** Only the bookkeeping effects matter to the log. */
  lemma {:induction false} OnlyBookkeepingMatters(logs: seq<SessionLog.Entry>, effects: seq<Countdown.Effect>)
    ensures ApplyEffects(logs, effects) == ApplyEffects(logs, Countdown.Bookkeeping(effects))
    decreases |effects|
  {
    if |effects| > 0 {
      var e := effects[0];
      var rest := effects[1..];
      OnlyBookkeepingMatters(ApplyEffect(logs, e), rest);
      assert Countdown.Bookkeeping(effects) == Countdown.BookkeepingOf(e) + Countdown.Bookkeeping(rest);
      if Countdown.BookkeepingOf(e) == [e] {
        ApplyCons(logs, e, Countdown.Bookkeeping(rest));
      } else {
        OtherEffectKeeps(logs, e);
        assert Countdown.Bookkeeping(effects) == Countdown.Bookkeeping(rest);
      }
    }
  }

  lemma ApplyCons(logs: seq<SessionLog.Entry>, e: Countdown.Effect, effects: seq<Countdown.Effect>)
    ensures ApplyEffects(logs, [e] + effects) == ApplyEffects(ApplyEffect(logs, e), effects)
  {
    assert ([e] + effects)[1..] == effects;
  }

  lemma OtherEffectKeeps(logs: seq<SessionLog.Entry>, e: Countdown.Effect)
    requires Countdown.BookkeepingOf(e) != [e]
    ensures Countdown.BookkeepingOf(e) == []
    ensures ApplyEffect(logs, e) == logs
  {
  }

  datatype Outcome = Outcome(logs: seq<SessionLog.Entry>, number: int, run: Countdown.Trace)

  /** The log update for the way a countdown with log number `n` ended; none
      when `n` is 0, which the countdown treats as having no log number. */
  function EndUpdate(logs: seq<SessionLog.Entry>, n: int, phase: Countdown.Phase): seq<SessionLog.Entry> {
    if n == 0 then logs
    else match phase
      case Counting => logs
      case Finished(Completed) => SessionLog.Complete(logs, n)
      case Finished(Stopped(left)) => SessionLog.Stop(logs, n, left)
  }

  lemma ApplyEnd(logs: seq<SessionLog.Entry>, c: Countdown.Config, phase: Countdown.Phase)
    ensures ApplyEffects(logs, Countdown.EndBookkeeping(c, phase)) == EndUpdate(logs, c.logNumber, phase)
  {
    match phase
    case Counting =>
    case Finished(Completed) =>
      if c.logNumber != 0 {
        var done := SessionLog.Complete(logs, c.logNumber);
        assert Countdown.EndBookkeeping(c, phase) == [Countdown.LogComplete(c.logNumber), Countdown.StartReminder];
        assert ApplyEffects(done, [Countdown.StartReminder]) == done;
      } else {
        assert Countdown.EndBookkeeping(c, phase) == [Countdown.StartReminder];
      }
    case Finished(Stopped(left)) =>
      if c.logNumber != 0 {
        assert Countdown.EndBookkeeping(c, phase) == [Countdown.LogStop(c.logNumber, left)];
      } else {
        assert Countdown.EndBookkeeping(c, phase) == [];
      }
  }

  /** A session of `total` seconds for `task`, with the clips in `present`,
      run over `inputs`, starting from the log `logs`. Its record gets the
      next free number, the countdown runs with that number, and the log it
      leaves is the freshly opened log with the update for the way the
      countdown ended. */
  function RunSession(logs: seq<SessionLog.Entry>, total: nat, task: string,
                      present: set<Notifications.Clip>, inputs: seq<Countdown.Input>): (r: Outcome)
    ensures r.number == SessionLog.NextNumber(logs)
    ensures r.run == Countdown.Run(Countdown.Config(total, present, r.number), inputs)
    ensures r.logs == EndUpdate(SessionLog.Start(logs, total, task).logs, r.number, r.run.timer.phase)
  {
    var start := SessionLog.Start(logs, total, task);
    var c := Countdown.Config(total, present, start.number);
    var run := Countdown.Run(c, inputs);
    Countdown.RunInvariant(c, inputs);
    OnlyBookkeepingMatters(start.logs, run.effects);
    ApplyEnd(start.logs, c, run.timer.phase);
    Outcome(ApplyEffects(start.logs, run.effects), start.number, run)
  }

  /** The record the end update leaves for a freshly opened session. */
  lemma EndRecord(logs: seq<SessionLog.Entry>, total: nat, task: string, phase: Countdown.Phase)
    ensures var start := SessionLog.Start(logs, total, task);
      var after := EndUpdate(start.logs, start.number, phase);
      && |after| == |logs| + 1
      && after[..|logs|] == logs
      && after[|logs|].number == Some(start.number)
      && after[|logs|].duration == total
      && (start.number == 0 || phase == Countdown.Counting ==>
            after[|logs|].status == SessionLog.Started && !after[|logs|].completed)
      && (start.number != 0 && phase == Countdown.Finished(Countdown.Completed) ==>
            after[|logs|].status == SessionLog.Completed && after[|logs|].completed
            && after[|logs|].remainingSeconds.None?)
      && (forall left: nat :: start.number != 0 && phase == Countdown.Finished(Countdown.Stopped(left)) ==>
            after[|logs|].status == SessionLog.Stopped && !after[|logs|].completed
            && after[|logs|].remainingSeconds == Some(left))
  {
    SessionLog.EndTouchesOnlyNewEntry(logs, total, task);
  }

  /** The log a session leaves: earlier records unchanged, and one new record
      that says how the countdown ended: completed, stopped with the value it
      was stopped at, or still started when the inputs ran out first or the
      session had no log number to report to. */
  lemma SessionRecord(logs: seq<SessionLog.Entry>, total: nat, task: string,
                      present: set<Notifications.Clip>, inputs: seq<Countdown.Input>)
    ensures var r := RunSession(logs, total, task, present, inputs);
      && |r.logs| == |logs| + 1
      && r.logs[..|logs|] == logs
      && r.logs[|logs|].number == Some(r.number)
      && r.logs[|logs|].duration == total
      && (r.number == 0 || r.run.timer.phase == Countdown.Counting ==>
            r.logs[|logs|].status == SessionLog.Started && !r.logs[|logs|].completed)
      && (r.number != 0 && r.run.timer.phase == Countdown.Finished(Countdown.Completed) ==>
            r.logs[|logs|].status == SessionLog.Completed && r.logs[|logs|].completed
            && r.logs[|logs|].remainingSeconds.None?)
      && (forall left: nat :: r.number != 0 && r.run.timer.phase == Countdown.Finished(Countdown.Stopped(left)) ==>
            r.logs[|logs|].status == SessionLog.Stopped && !r.logs[|logs|].completed
            && r.logs[|logs|].remainingSeconds == Some(left))
  {
    var r := RunSession(logs, total, task, present, inputs);
    EndRecord(logs, total, task, r.run.timer.phase);
  }
}

=== FILE: sessionlog.dfy ===
/** The session log (`_get_next_log_number`, `log_timer_start`,
    `log_timer_complete`, `log_timer_stop`): a list of numbered records, one per
    session, appended when a session starts and updated when it ends.
    Loading and saving the file and the date/time stamps are left to the caller:
    each operation takes the records as loaded and returns them as saved. */
module SessionLog {
  import opened Wrappers
  import Clock

  datatype Status = Started | Completed | Stopped

  /** One record. `number` is absent for a record without a number key. */
  datatype Entry = Entry(
    number: Option<int>,
    duration: nat,
    durationText: string,
    task: string,
    status: Status,
    completed: bool,
    remainingSeconds: Option<nat>)

  /** The task recorded when the user gave none. */
  const NoTask: string := "(업무 없음)"

  /** The number a record counts with when numbers are compared; a missing one counts as 0. */
  function NumberOf(e: Entry): int {
    e.number.GetOr(0)
  }

  /** The largest number in a non-empty log. */
  function MaxNumber(logs: seq<Entry>): (m: int)
    requires |logs| > 0
    ensures forall i :: 0 <= i < |logs| ==> NumberOf(logs[i]) <= m
    ensures exists i :: 0 <= i < |logs| && NumberOf(logs[i]) == m
  {
    if |logs| == 1 then NumberOf(logs[0])
    else
      var rest := MaxNumber(logs[1..]);
      assert forall i :: 1 <= i < |logs| ==> NumberOf(logs[i]) == NumberOf(logs[1..][i - 1]);
      if NumberOf(logs[0]) >= rest then NumberOf(logs[0]) else rest
  }

  /** `_get_next_log_number`: 1 for an empty log, else one past the largest number. */
  function NextNumber(logs: seq<Entry>): (n: int)
    ensures forall i :: 0 <= i < |logs| ==> NumberOf(logs[i]) < n
    ensures |logs| > 0 ==> exists i :: 0 <= i < |logs| && NumberOf(logs[i]) == n - 1
    ensures |logs| == 0 ==> n == 1
  {
    if |logs| == 0 then 1 else MaxNumber(logs) + 1
  }

  /** No record holds `n`. */
  predicate Unused(logs: seq<Entry>, n: int) {
    forall i :: 0 <= i < |logs| ==> logs[i].number != Some(n)
  }

  /** The next number is the least number above every recorded one: it is new,
      and any number that is new and above every recorded one is at least it. */
  lemma NextNumberIsLeastFresh(logs: seq<Entry>, k: int)
    ensures Unused(logs, NextNumber(logs))
    ensures (forall i :: 0 <= i < |logs| ==> NumberOf(logs[i]) < k) && (|logs| > 0 || k >= 1)
      ==> NextNumber(logs) <= k
  {
    var n := NextNumber(logs);
    forall i | 0 <= i < |logs| ensures logs[i].number != Some(n) {
      assert NumberOf(logs[i]) < n;
    }
  }

  /** The log after a start and the number given to the new record. */
  datatype Opened = Opened(logs: seq<Entry>, number: int)

  /** `log_timer_start`: append a record for a session of `total` seconds. */
  function Start(logs: seq<Entry>, total: nat, task: string): (r: Opened)
    ensures |r.logs| == |logs| + 1 && r.logs[..|logs|] == logs
    ensures r.number == NextNumber(logs) && Unused(logs, r.number)
    ensures var e := r.logs[|logs|];
      && e.number == Some(r.number)
      && e.duration == total
      && e.durationText == Clock.FormatTime(total)
      && Clock.ReadClock(e.durationText) == Some(total)
      && e.task == (if task == "" then NoTask else task)
      && e.status == Started && !e.completed && e.remainingSeconds.None?
  {
    var n := NextNumber(logs);
    NextNumberIsLeastFresh(logs, n);
    var entry := Entry(Some(n), total, Clock.FormatTime(total),
                       if task == "" then NoTask else task, Started, false, None);
    Opened(logs + [entry], n)
  }

  /** `i` is the first record numbered `n`. */
  predicate IsFirstMatch(logs: seq<Entry>, n: int, i: nat) {
    && i < |logs|
    && logs[i].number == Some(n)
    && forall j :: 0 <= j < i ==> logs[j].number != Some(n)
  }

  /** Position of the first record numbered `n`, if any. */
  function FirstMatch(logs: seq<Entry>, n: int): (r: Option<nat>)
    ensures r.Some? ==> IsFirstMatch(logs, n, r.value)
    ensures r.None? ==> Unused(logs, n)
  {
    if |logs| == 0 then None
    else if logs[0].number == Some(n) then Some(0)
    else match FirstMatch(logs[1..], n)
      case None => None
      case Some(i) => Some(i + 1)
  }

  /** The log with the first record numbered `n` passed through `update`;
      unchanged when no record has that number. */
  function UpdateFirst(logs: seq<Entry>, n: int, update: Entry -> Entry): (r: seq<Entry>)
    ensures |r| == |logs|
    ensures FirstMatch(logs, n).None? ==> r == logs
    ensures FirstMatch(logs, n).Some? ==>
      var i := FirstMatch(logs, n).value;
      r == logs[i := update(logs[i])]
  {
    match FirstMatch(logs, n)
    case None => logs
    case Some(i) => logs[i := update(logs[i])]
  }

  function MarkCompleted(e: Entry): Entry {
    e.(status := Completed, completed := true)
  }

  function MarkStopped(e: Entry, remaining: nat): Entry {
    e.(status := Stopped, completed := false, remainingSeconds := Some(remaining))
  }

  /** `log_timer_complete`: the first record numbered `n` becomes completed. */
  function Complete(logs: seq<Entry>, n: int): (r: seq<Entry>)
    ensures |r| == |logs|
    ensures forall i :: 0 <= i < |logs| && !IsFirstMatch(logs, n, i) ==> r[i] == logs[i]
    ensures forall i :: 0 <= i < |logs| && IsFirstMatch(logs, n, i) ==>
      r[i] == logs[i].(status := Completed, completed := true)
  {
    UpdateFirst(logs, n, MarkCompleted)
  }

  /** `log_timer_stop`: the first record numbered `n` becomes stopped with
      `remaining` seconds left. */
  function Stop(logs: seq<Entry>, n: int, remaining: nat): (r: seq<Entry>)
    ensures |r| == |logs|
    ensures forall i :: 0 <= i < |logs| && !IsFirstMatch(logs, n, i) ==> r[i] == logs[i]
    ensures forall i :: 0 <= i < |logs| && IsFirstMatch(logs, n, i) ==>
      r[i] == logs[i].(status := Stopped, completed := false, remainingSeconds := Some(remaining))
  {
    UpdateFirst(logs, n, e => MarkStopped(e, remaining))
  }

  /** Ending the session a start has just opened changes exactly the new record. */
  lemma EndTouchesOnlyNewEntry(logs: seq<Entry>, total: nat, task: string)
    ensures var o := Start(logs, total, task);
      && Complete(o.logs, o.number)[..|logs|] == logs
      && Complete(o.logs, o.number)[|logs|] == MarkCompleted(o.logs[|logs|])
    ensures forall remaining: nat ::
      var o := Start(logs, total, task);
      && Stop(o.logs, o.number, remaining)[..|logs|] == logs
      && Stop(o.logs, o.number, remaining)[|logs|] == MarkStopped(o.logs[|logs|], remaining)
  {
    var o := Start(logs, total, task);
    assert IsFirstMatch(o.logs, o.number, |logs|) by {
      forall j | 0 <= j < |logs| ensures o.logs[j].number != Some(o.number) {
        assert o.logs[j] == logs[j];
      }
    }
  }
}

=== FILE: text.dfy ===
/** Character-level helpers the timer's text handling relies on: ASCII digits
    and decimal numerals (`str.isdigit`, `int`, `str`), `str.split` on one
    character and its inverse, `str.strip` and `str.lower`.
    Only ASCII is modelled: Unicode digits, whitespace and case mappings are not. */
module Text {

  predicate IsDigit(c: char) {
    '0' <= c <= '9'
  }

  /** Every character is an ASCII digit; the empty string qualifies. */
  predicate AllDigits(s: string) {
    forall i :: 0 <= i < |s| ==> IsDigit(s[i])
  }

  /** `str.isdigit()` on ASCII text: non-empty and all digits. */
  predicate IsDecimal(s: string) {
    |s| > 0 && AllDigits(s)
  }

  function DigitValue(c: char): nat
    requires IsDigit(c)
  {
    (c as int) - ('0' as int)
  }

  function DigitChar(d: nat): (c: char)
    requires d < 10
    ensures IsDigit(c) && DigitValue(c) == d
  {
    ('0' as int + d) as char
  }

  /** The value `int(s)` gives a string of digits; the empty string reads as 0. */
  function Value(s: string): nat
    requires AllDigits(s)
  {
    if |s| == 0 then 0 else Value(s[..|s| - 1]) * 10 + DigitValue(s[|s| - 1])
  }

  /** The numeral `str(n)`: decimal digits without leading zeros. */
  function Digits(n: nat): (s: string)
    ensures IsDecimal(s)
    ensures Value(s) == n
    ensures |s| == 1 <==> n < 10
    ensures s[0] == '0' ==> n == 0
  {
    if n < 10 then [DigitChar(n)]
    else
      var prefix := Digits(n / 10);
      var s := prefix + [DigitChar(n % 10)];
      assert s[..|s| - 1] == prefix;
      s
  }

  /** A leading zero does not change the value of a numeral. */
  lemma {:induction false} LeadingZero(s: string)
    requires AllDigits(s)
    ensures AllDigits("0" + s) && Value("0" + s) == Value(s)
  {
    if |s| > 0 {
      var t := "0" + s;
      assert t[..|t| - 1] == "0" + s[..|s| - 1];
      LeadingZero(s[..|s| - 1]);
    }
  }

  /** `s.split(sep)`: the pieces between occurrences of `sep`, in order. */
  function Split(s: string, sep: char): (parts: seq<string>)
    ensures |parts| >= 1
  {
    if |s| == 0 then [""]
    else
      var rest := Split(s[1..], sep);
      if s[0] == sep then [""] + rest
      else [[s[0]] + rest[0]] + rest[1..]
  }

  /** `sep.join(parts)`. */
  function Join(parts: seq<string>, sep: char): string
    requires |parts| >= 1
  {
    if |parts| == 1 then parts[0] else parts[0] + [sep] + Join(parts[1..], sep)
  }

  /** Joining the pieces of a split gives back the original string. */
  lemma {:induction false} JoinSplit(s: string, sep: char)
    ensures Join(Split(s, sep), sep) == s
  {
    if |s| > 0 {
      var rest := Split(s[1..], sep);
      JoinSplit(s[1..], sep);
      if s[0] != sep {
        var parts := Split(s, sep);
        assert parts[1..] == rest[1..];
        if |rest| > 1 {
          assert Join(rest, sep) == rest[0] + [sep] + Join(rest[1..], sep);
        }
      }
    }
  }

  /** No piece of a split holds the separator. */
  lemma {:induction false} SplitPiecesFree(s: string, sep: char)
    ensures forall i :: 0 <= i < |Split(s, sep)| ==> sep !in Split(s, sep)[i]
  {
    if |s| > 0 {
      var rest := Split(s[1..], sep);
      SplitPiecesFree(s[1..], sep);
      if s[0] != sep {
        assert sep !in [s[0]] + rest[0];
      }
    }
  }

  /** A string the separator splits in two is the first piece, the separator
      and the second piece. */
  lemma SplitInTwo(s: string, sep: char)
    requires |Split(s, sep)| == 2
    ensures var parts := Split(s, sep);
      s == parts[0] + [sep] + parts[1] && sep !in parts[0] && sep !in parts[1]
  {
    var parts := Split(s, sep);
    JoinSplit(s, sep);
    SplitPiecesFree(s, sep);
    assert parts[1..] == [parts[1]];
  }

  lemma {:induction false} SplitWithout(p: string, sep: char)
    requires sep !in p
    ensures Split(p, sep) == [p]
  {
    if |p| > 0 {
      assert p[0] != sep;
      SplitWithout(p[1..], sep);
      assert [p[0]] + p[1..] == p;
    }
  }

  lemma {:induction false} SplitFirst(p: string, sep: char, x: string)
    requires sep !in p
    ensures Split(p + [sep] + x, sep) == [p] + Split(x, sep)
  {
    var s := p + [sep] + x;
    if |p| == 0 {
      assert s[1..] == x;
    } else {
      assert s[0] == p[0] && p[0] != sep;
      assert s[1..] == p[1..] + [sep] + x;
      SplitFirst(p[1..], sep, x);
      assert [p[0]] + p[1..] == p;
    }
  }

  /** Splitting a join of separator-free pieces gives back the pieces. */
  lemma {:induction false} SplitJoin(parts: seq<string>, sep: char)
    requires |parts| >= 1
    requires forall i :: 0 <= i < |parts| ==> sep !in parts[i]
    ensures Split(Join(parts, sep), sep) == parts
  {
    if |parts| == 1 {
      SplitWithout(parts[0], sep);
    } else {
      SplitJoin(parts[1..], sep);
      SplitFirst(parts[0], sep, Join(parts[1..], sep));
      assert [parts[0]] + parts[1..] == parts;
    }
  }

  /** The ASCII characters `str.strip()` removes: space, tab, the line and
      page breaks, and the four separators `\x1c` to `\x1f`. */
  predicate IsSpace(c: char) {
    || c == ' ' || c == '\t' || c == '\n' || c == '\r' || c == '\U{0B}' || c == '\U{0C}'
    || '\U{1C}' <= c <= '\U{1F}'
  }

  function TrimStart(s: string): (r: string)
    ensures |r| <= |s| && r == s[|s| - |r|..]
    ensures |r| > 0 ==> !IsSpace(r[0])
  {
    if |s| > 0 && IsSpace(s[0]) then TrimStart(s[1..]) else s
  }

  function TrimEnd(s: string): (r: string)
    ensures |r| <= |s| && r == s[..|r|]
    ensures |r| > 0 ==> !IsSpace(r[|r| - 1])
  {
    if |s| > 0 && IsSpace(s[|s| - 1]) then TrimEnd(s[..|s| - 1]) else s
  }

  /** `s.strip()`: `s` without its leading and trailing whitespace. */
  function Strip(s: string): (r: string)
    ensures |r| > 0 ==> !IsSpace(r[0]) && !IsSpace(r[|r| - 1])
    ensures |r| <= |s|
    ensures (|s| == 0 || (!IsSpace(s[0]) && !IsSpace(s[|s| - 1]))) ==> r == s
  {
    TrimEnd(TrimStart(s))
  }

  function LowerChar(c: char): char {
    if 'A' <= c <= 'Z' then (c as int + 32) as char else c
  }

  /** `s.lower()` on ASCII letters; every other character is kept. */
  function Lower(s: string): (r: string)
    ensures |r| == |s|
    ensures forall i :: 0 <= i < |s| ==> r[i] == LowerChar(s[i])
  {
    if |s| == 0 then "" else [LowerChar(s[0])] + Lower(s[1..])
  }
}

=== FILE: wrappers.dfy ===
/** Failure-compatible wrappers used across the model: `Option` for values that
    may be absent, `Result` for operations that raise an error in the timer. */
module Wrappers {

  datatype Option<+T> = None | Some(value: T) {

    /** The wrapped value, or `default` when absent. */
    function GetOr(default: T): T {
      match this
      case Some(v) => v
      case None => default
    }
  }

  datatype Result<+R, +E> = Ok(value: R) | Err(error: E) {

    predicate IsFailure() {
      Err?
    }

    function PropagateFailure<U>(): Result<U, E>
      requires Err?
    {
      Err(error)
    }

    function Extract(): R
      requires Ok?
    {
      value
    }
  }
}
